=== FILE: README.md ===
# threejs-model-loader in Dafny

This project models the logic of threejs-model-loader, a small JavaScript library. The
library picks a three.js format loader from a file's extension, caches loader instances and
loaded results, and normalises what the format loaders return. The project also models the
`<model-viewer>` custom element that displays a model and the drag-and-drop demo page. Three
loader variants are modelled, each as its own module:

- `EsModelLoader` (src/ModelLoader.js) dispatches to registered load callbacks.
- `UmdModelLoader` (umd/ModelLoader.js) maps extensions to three.js loader classes through a
  fixed table. It keeps one loader per class.
- `CachingModelLoader` (ModelLoader.js) is the older global loader. It also caches results
  per URL and hands out clones of them.

Shared pieces:

- `Extension` models the extension regular expression `/\.([^\.\/\\]+)$/`. It has a reference
  reading of the pattern and a proof that the extraction matches it.
- `LoaderTable` holds the two extension tables.
- `LoaderCache` models `extToLoader`: case-insensitive lookup and create-once caching.
- `ResultShape` models `formResult`.
- `Text` models the string built-ins used: ASCII `toLowerCase`, one-character `replace`,
  `split` and `join`. Its `EndsWith` is a helper for suffix tests, which the source writes
  with `substr` (example/index.js:211-214) and an anchored regular expression (:235-243).
- `Wrappers` models `null`/`undefined` as `Option`, JavaScript truthiness, `||`, and the
  stringification of `null` used as a property key.

`DropDemo` covers example/index.js: `cleanFilePath`, the URL modifier's suffix match, the
choice of the model to show, the fallback file table and the background colour rotation.
`ModelViewerElement` covers umd/model-viewer-element.js: its attributes and properties,
`_loadModel`'s request counter, `attributeChangedCallback` and the render-loop gate.

Loaders, callbacks and three.js objects are type parameters. Calls to them (`getLoader`,
`loader.load`, `onLoad`, `onError`, dispatched events) are returned as ordered traces, so
"called exactly once" becomes a statement about a list. Asynchronous callbacks are separate
operations applied to the state.

## Model

| member | source | states |
|---|---|---|
| Wrappers.OrElse | src/ModelLoader.js:84 | `a \|\| b` yields `a` when it is a non-empty string and `b` otherwise |
| Extension.TrailingRun | src/ModelLoader.js:39 | the run of non-`.`/`/`/`\` characters at the end of a string is maximal: every character in it qualifies and the one before it does not |
| Extension.ExtractExtension | src/ModelLoader.js:37-43 | a returned extension is a match of the pattern (the URL ends with `.` plus it, it is non-empty and has no `.`, `/`, `\`); `null` only when no string matches |
| Extension.ExtractExtensionIff | src/ModelLoader.js:39-40 | the result is `ext` exactly when the pattern matches with capture `ext` |
| Extension.MatchUnique | src/ModelLoader.js:39 | the pattern captures at most one extension for a URL |
| Extension.MatchIsTrailingRun | src/ModelLoader.js:39 | any capture is the whole trailing run of extension characters |
| Extension.ExtensionAfterLastDot | src/ModelLoader.js:37-43 | no `.` gives `null`; otherwise the result is the text after the last `.` when that is non-empty and has no `/` or `\`, and `null` otherwise |
| Extension.MatchFollowsLastDot | src/ModelLoader.js:39-40 | a capture starts right after the URL's last `.` |
| Extension.ExtensionShape | src/ModelLoader.js:39-40 | a found extension is non-empty, free of `.`, `/`, `\`, and the URL ends with `.` + it |
| Extension.ExtensionOfSuffix | src/ModelLoader.js:39-40 | any prefix followed by `.` and an extension-shaped word yields that word |
| Text.ToLower | umd/ModelLoader.js:127 | lower-casing keeps the length and maps each character through the ASCII lower-case mapping |
| Text.ToLowerIsLower | umd/ModelLoader.js:127 | lower-casing is idempotent and its result is lower case |
| Text.ReplaceChar | example/index.js:188 | same length; each occurrence of the replaced character becomes the new one, all else is kept |
| Text.ReplaceCharRemoves | example/index.js:188 | after `replace( /\\/g, '/' )` no backslash is left |
| Text.Split | example/index.js:189 | splitting on one character yields at least one piece and no piece holds the separator |
| Text.SplitConcat | example/index.js:189 | splitting `a + sep + b` is splitting `a` then `b` |
| Text.SplitJoin | example/index.js:189-197 | joining separator-free pieces and splitting again returns the pieces |
| LoaderTable.LoaderMapKeysListed | src/ModelLoader.js:7-35 | the table has exactly the 25 listed extensions |
| LoaderTable.LoaderMapWellFormed | umd/ModelLoader.js:20-48 | every key of both tables is lower case and shaped like a URL extension, so a lower-cased extension can reach it |
| LoaderTable.SharedLoaders | umd/ModelLoader.js:31-44 | `gltf`/`glb` share GLTFLoader, `vtk`/`vtp` share VTKLoader, and only the newer table has `wrl` |
| LoaderCache.NormalizeExt | umd/ModelLoader.js:127 | a truthy extension becomes its lower-case form; a falsy one becomes `null` |
| LoaderCache.LoaderNameFor | umd/ModelLoader.js:127-128 | the class name is the table entry under the normalised key (`null` looked up as "null"); a missing or empty entry counts as none |
| LoaderCache.ExtToLoader | umd/ModelLoader.js:124-155 | no class name gives the "No loader specified" error with the cache unchanged; a cached class yields the cached instance; otherwise `getLoader` runs once and its instance is cached under the name; existing entries never change |
| LoaderCache.CaseInsensitive | umd/ModelLoader.js:127-128 | extensions differing only in ASCII case give identical lookups |
| LoaderCache.TableKeyResolves | umd/ModelLoader.js:127-128 | any case variant of a table key resolves to that key's class |
| LoaderCache.SharedLoaderReused | umd/ModelLoader.js:137-153 | a second extension mapping to an already created class gets the same instance with no new `getLoader` and the cache unchanged |
| LoaderCache.SessionCreatesEachLoaderOnce | umd/ModelLoader.js:137-153 | over any request sequence each class is created at most once and never when already cached; cached instances are kept; the final cache is the initial names plus the created ones |
| ResultShape.FormResult | src/ModelLoader.js:130-148 | the model comes from `scene`, else `object`, else the result itself; a geometry is wrapped in a mesh with the given white material, anything else is kept; `extension` and `originalResult` pass through |
| EsModelLoader.GetLoadCallback | src/ModelLoader.js:64-68 | a callback is found exactly when the extension is a registered key, and it is that key's callback |
| EsModelLoader.ChosenExtension | src/ModelLoader.js:83-84 | a truthy `options.extension` wins over the URL's extension; a chosen extension is never empty |
| EsModelLoader.Load | src/ModelLoader.js:77-112 | exactly one call: "No file extension found" iff no truthy option and no URL extension; "No load callback" iff an extension was chosen but is not registered; otherwise the registered callback with the URL and options |
| EsModelLoader.LookupIsCaseSensitive | src/ModelLoader.js:92-106 | a callback registered for `gltf` serves `a.gltf` but not `a.GLTF` |
| EsModelLoader.Completed | src/ModelLoader.js:96-100 | a successful load's record has no `extension`, keeps the raw result picks `scene`, else `object`, else the result itself, and wraps it in a mesh of white Phong material exactly when it is a geometry |
| EsModelLoader.CanLoadModel | src/ModelLoader.js:70-74 | corrected own-key reading: the string or its extension (`null` as "null") is registered |
| EsModelLoader.CanLoadModelMatchesLoad | src/ModelLoader.js:70-74 | without an extension option, `canLoadModel( url )` holds exactly when `load( url )` invokes a callback (URL not itself a key, no "null" key) |
| EsModelLoader.CanLoadRegisteredExtension | src/ModelLoader.js:70-74 | a registered extension is accepted on its own and after any `prefix.` |
| EsModelLoader.CanLoadModelAsWritten | src/ModelLoader.js:72 | the as-written `in` test accepts everything the own-key reading accepts |
| EsModelLoader.CanLoadModelAsWrittenAcceptsInherited | src/ModelLoader.js:72 | with nothing registered, `toString` and any `….constructor` URL are accepted |
| EsModelLoader.CanLoadModelAgreesOffPrototype | src/ModelLoader.js:72 | both readings agree when neither the string nor its extension is an `Object.prototype` name |
| EsModelLoader.MergeParseOptions | src/ModelLoader.js:116-120 | `options` with its own `extension` property is kept as is; otherwise the argument supplies it |
| EsModelLoader.Parse | src/ModelLoader.js:114-126 | `parse` makes exactly one call: the callback registered for the chosen extension, with the blob URL, where an own `options.extension` beats the argument; the callback gets the merged options; a chosen but unregistered extension gives "No load callback" for that extension, and no extension at all gives "No file extension found" |
| EsModelLoader.ParseExtensionPrecedence | src/ModelLoader.js:114-126 | `parse` loads by the `extension` argument unless `options` has its own `extension`, which wins even when falsy |
| UmdModelLoader.Load | umd/ModelLoader.js:62-90 | unknown extension: one error, state unchanged; cached class: one `loader.load( url )`; new class: one `getLoader`, then `load( url )` on the new cached instance |
| UmdModelLoader.LoadIgnoresCase | umd/ModelLoader.js:68-70 | overrides differing only in ASCII case behave identically |
| UmdModelLoader.NullExtensionUnmapped | umd/ModelLoader.js:127-131 | a missing extension is looked up under the key "null", which no table entry has, and is reported as the 'null' extension |
| UmdModelLoader.LoadWithoutExtension | umd/ModelLoader.js:127-131 | no override and no URL extension reports "No loader specified for 'null' extension" and changes nothing |
| UmdModelLoader.Completed | umd/ModelLoader.js:106-120 | the record has no `extension`, keeps the raw result, picks `scene`, else `object`, else the result itself, and wraps it in a mesh of white basic material exactly when it is a geometry |
| UmdModelLoader.ParseAsWritten | umd/ModelLoader.js:92-102 | as written: the loader cache ends as `extToLoader` leaves it, the trace holds only `getLoader` calls and always ends in a TypeError |
| UmdModelLoader.ParseAsWrittenAlwaysThrows | umd/ModelLoader.js:92-102 | as written, every `parse` ends in a TypeError without reaching `onLoad` or `onError` |
| UmdModelLoader.Parse | umd/ModelLoader.js:92-102 | corrected: exactly one of `onLoad` or `onError`; `onError` exactly when no class maps; the cache only grows |
| CachingModelLoader.CloneResult | ModelLoader.js:57-79 | element by element: objects are cloned; anything else becomes a plain object with the same own fields (`Object.assign( {}, r )` drops the prototype) and a cloned `scene` if it has one |
| CachingModelLoader.CloneResultOnlyClonesObjects | ModelLoader.js:57-79 | only objects and scenes go through `clone`: with an identity clone the result is the input with every record made plain, so it is the input exactly when no element is a class instance such as a `BufferGeometry` |
| CachingModelLoader.WithLoader | ModelLoader.js:87-118 | the lookup leaves the result cache alone; no class: one `onError` with the state unchanged; a cached class: the continuation on the cached instance; a new class: one `getLoader`, the new instance stored in `cachedLoaders`, then the continuation on it |
| CachingModelLoader.Load | ModelLoader.js:120-161 | a cached key delivers clones next frame and changes nothing; on a miss the result cache is untouched and: no class gives one error; a cached class gives one `load( url )` on the cached instance; a new class gives one `getLoader`, then `load( url )` on the new instance, which is cached |
| CachingModelLoader.LoadSucceeded | ModelLoader.js:152-156 | success stores a clone of the arguments under the key, passes the originals to `onLoad`, and touches no other key |
| CachingModelLoader.LoadFailed | ModelLoader.js:157 | a loader error reaches `onError` and caches nothing |
| CachingModelLoader.Parse | ModelLoader.js:163-173 | `parse` makes one `onError` with the state unchanged (no class), or one `loader.parse` on the cached instance, or on a new one created by one `getLoader` and cached; the result cache is untouched |
| CachingModelLoader.ClearCache | ModelLoader.js:176-180 | the result cache becomes empty; loader instances are kept |
| CachingModelLoader.HitAfterSuccess | ModelLoader.js:126-133 | after a success, loading the same key is a hit delivering clones of the stored clone |
| CachingModelLoader.ClearCacheForcesMiss | ModelLoader.js:176-180 | after clearing, no load is served from the cache |
| CachingModelLoader.ErrorPathNeverCaches | ModelLoader.js:149-159 | starting a load and then failing leaves the result cache as it was |
| DropDemo.CleanFilePath | example/index.js:185-199 | the result has no backslash; splitting it on `/` gives exactly the kept segments (`..` pops one, `.` and nothing else is dropped); with none kept it is `''` |
| DropDemo.Segments | example/index.js:187-189 | the path splits into at least one segment and no segment holds `/` or `\` |
| DropDemo.CleanFilePathShape | example/index.js:187-197 | the cleaned path has no backslash and no `.` or `..` segment; it splits back into the kept segments |
| DropDemo.CleanFilePathIdempotent | example/index.js:185-199 | cleaning a cleaned path changes nothing |
| DropDemo.KeptSegmentsAppend | example/index.js:190-196 | appending `..` drops the last kept segment (nothing if none), `.` does nothing, a plain segment is appended |
| DropDemo.SameEndingIff | example/index.js:209-214 | a name matches a cleaned URL exactly when one of them is a suffix of the other |
| DropDemo.ModifyUrl | example/index.js:204-231 | the last matching file is served; with no match the URL is returned unchanged |
| DropDemo.FirstWithLoaderSuffix | example/index.js:241-244 | the chosen index is the first name ending, ignoring ASCII case, in a table key; none only when no name does |
| DropDemo.SourceAfterDrop | example/index.js:234-244 | `src` becomes the first loadable dropped name, or "undefined" when there is none |
| DropDemo.NoDotRequired | example/index.js:235-239 | no dot is needed: any name ending in `x`, `X` or `GLTF` is a candidate |
| DropDemo.Assign | example/index.js:81 | storing a key keeps the table consistent; a new key goes to the end of the key order, an existing one keeps its place; the key holds the file and other keys are untouched |
| DropDemo.FallbackFiles | example/index.js:79-81 | the fallback file table lists each key once and lists exactly its keys |
| DropDemo.FallbackFilesKeysStored | example/index.js:79-81 | every listed key is `/` + the name of some non-empty dropped file |
| DropDemo.FallbackFilesOrder | example/index.js:79-81 | keys are listed in the order their first file was dropped |
| DropDemo.FallbackFilesContents | example/index.js:79-81 | every non-empty file is stored under `/` + its name, empty files are not, and the last file of a name wins |
| DropDemo.OnDrop | example/index.js:175-176 | a drop shows the head colour and rotates the list left by one, keeping the same colours |
| DropDemo.ColorsAfterRotate | example/index.js:175-176 | after `k` drops the list is the start rotated left by `k` |
| DropDemo.BackgroundOfDrop | example/index.js:175-178 | drop `k` shows colour `k mod 5`; five drops restore the list |
| ModelViewerElement.Src | umd/model-viewer-element.js:36-40 | `src` is the attribute, or `''` when it is absent |
| ModelViewerElement.AmbientColor | umd/model-viewer-element.js:59-63 | `ambientColor` is a non-empty attribute, else `#455A64` |
| ModelViewerElement.DisplayShadowIsPresence | umd/model-viewer-element.js:47-51 | `displayShadow` is true after setting `display-shadow` to any value, `"false"` included, and false after removing it |
| ModelViewerElement.ShowGridIsPresence | umd/model-viewer-element.js:70-74 | `showGrid` is true, and the grid shown, after setting `show-grid` to any value; false after removing it |
| ModelViewerElement.AutoRedrawIsPresence | umd/model-viewer-element.js:81-85 | `autoRedraw` is true after setting `auto-redraw` to any value, with no callback run; false after removing it |
| ModelViewerElement.New | umd/model-viewer-element.js:174-177 | a new element has no model, request counter 0, a running render loop and a hidden grid |
| ModelViewerElement.LoadModel | umd/model-viewer-element.js:321-360 | same `src` as last time: no change; a new `src` removes the model (dirty if one was shown); a non-empty one fires `model-change`, then starts one load under counter + 1; an empty one keeps the counter |
| ModelViewerElement.CompleteLoad | umd/model-viewer-element.js:345-350 | only the current request id shows the model, marks the element dirty (`_addModel` ends with `_dirty = true`) and fires `model-loaded`; any other id changes nothing |
| ModelViewerElement.LandedLoadRendered | umd/model-viewer-element.js:345-350 | a load that lands is drawn on the next frame of a running, attached element, whatever its size or auto-redraw setting |
| ModelViewerElement.LoadFailed | umd/model-viewer-element.js:352-354 | errors are reported for every request, current or stale, and change no state |
| ModelViewerElement.AttributeChanged | umd/model-viewer-element.js:260-290 | every observed change marks the element dirty; `src` reloads, `ambient-color` recolours the light, `show-grid` shows the grid iff the attribute is present; a `src` change records it as the last loaded value, any other change leaves `_prevsrc`, the model and the counter alone; the light's `castShadow` and the renderer size never change |
| ModelViewerElement.SetAttribute | umd/model-viewer-element.js:18-22 | only observed attributes trigger the callback, and they do so even when the value is unchanged |
| ModelViewerElement.RemoveAttribute | umd/model-viewer-element.js:52-57 | removing an absent attribute does nothing and fires no callback |
| ModelViewerElement.SetSrc | umd/model-viewer-element.js:41-45 | `src` reads back the value set; a new non-empty value starts exactly one load under the next id after `model-change`; the value last loaded starts nothing |
| ModelViewerElement.SetDisplayShadow | umd/model-viewer-element.js:47-57 | after `displayShadow = v` the property reads back the truthiness of `v` |
| ModelViewerElement.SetAmbientColor | umd/model-viewer-element.js:59-68 | a truthy colour reads back, a falsy one gives the default `#455A64`; the ambient light follows whenever the callback runs |
| ModelViewerElement.SetShowGrid | umd/model-viewer-element.js:70-79 | `showGrid` reads back the value set, and the grid's visibility follows it whenever the callback runs |
| ModelViewerElement.SetAutoRedraw | umd/model-viewer-element.js:81-90 | `autoRedraw` reads back the value set; the attribute is not observed, so nothing else changes |
| ModelViewerElement.Redraw | umd/model-viewer-element.js:293-297 | `redraw()` sets the dirty flag and nothing else |
| ModelViewerElement.Refresh | umd/model-viewer-element.js:300-319 | a size mismatch resizes the renderer and marks the element dirty; otherwise nothing changes |
| ModelViewerElement.Frame | umd/model-viewer-element.js:179-221 | a frame renders iff the loop runs, the element is attached, and it is dirty, resized or auto-redrawing; rendering copies `displayShadow` to the light and clears the flag; a running, attached element's renderer takes the client size; nothing else changes |
| ModelViewerElement.IdleFrameStaysIdle | umd/model-viewer-element.js:179-215 | a frame that rendered nothing leaves nothing pending for the next one |
| ModelViewerElement.RenderClearsPending | umd/model-viewer-element.js:185-213 | after a render, the next frame of the same size renders iff auto-redraw is on |
| ModelViewerElement.Apply | umd/model-viewer-element.js:254-258 | no operation lowers the counter; a cancelled loop stays cancelled |
| ModelViewerElement.Run | umd/model-viewer-element.js:338-342 | over any history of callbacks, property sets, load completions and frames the request counter never goes down, and the loads started carry exactly the ids from counter + 1 to the final counter, in order |
| ModelViewerElement.StepsStartConsecutiveIds | umd/model-viewer-element.js:338-342 | for any step that starts at most one load, under the incremented counter, a history of steps starts loads with exactly the ids between the first and last counter, in order |
| ModelViewerElement.RunStartsConsecutiveIds | umd/model-viewer-element.js:338-342 | over any history, loads start with ids counter + 1, + 2, … up to the final counter, each once and in order |
| ModelViewerElement.SupersededLoadsIgnored | umd/model-viewer-element.js:345-347 | after any history, completing any started load but the last changes nothing |
| ModelViewerElement.NoFrameAfterDisconnect | umd/model-viewer-element.js:254-258 | after `disconnectedCallback` no frame renders again, even after reattaching |
| ModelViewerElement.ClearedSrcStillAcceptsPendingLoad | umd/model-viewer-element.js:334-347 | as written, clearing `src` during a load lets that load land: a model shows with an empty `src` |
| ModelViewerElement.LoadModelCancelling | umd/model-viewer-element.js:321-342 | corrected: any change of `src`, clearing included, moves the counter on and removes the model |
| ModelViewerElement.CancellingDropsPendingLoad | umd/model-viewer-element.js:334-347 | with the correction, no load started before `src` was cleared can land |

## Left out

- Browser and three.js I/O is not modelled: fetching, `eval`, blobs, object URLs, `requestAnimationFrame` timing, WebGL, DOM events and the format loaders themselves. These appear only as opaque values or as entries of a call trace.
- Text.ToLower: `toLowerCase` is modelled for ASCII letters only. Non-ASCII letters such as `Ä` are left as they are. One consequence differs from the source: JavaScript lowers the Kelvin sign U+212A to ASCII `k`, so `a.\u212Amz` and `a.vt\u212A` reach KMZLoader and VTKLoader in umd/ModelLoader.js:127-128, while the model reports "No loader specified" for them.
- EsModelLoader.GetLoadCallback: reads only the registry's own keys. In the source, `this.loaderCallbacks[ ext ]` also finds inherited `Object.prototype` members, so `load( 'a.constructor' )` would call `Object`. The `canLoadModel` finding below covers the same root cause.
- LoaderCache.LoaderNameFor: reads only the table's own keys. In the source, `this.loaderMap[ ext ]` also finds inherited members. An extension such as `constructor` then yields a function as the class name, and the later `getLoader` throws a TypeError instead of reporting "No loader specified".
- EsModelLoader.Load: registered callbacks are assumed truthy. The options object is reduced to its `extension` property, which the other code reads. The `console.error` default for a missing `onError` is not modelled.
- UmdModelLoader.Load: the `url == null` check after `url.match` is not modelled. For a string URL it is dead code, and a `null` URL would already throw in `match`.
- LoaderCache.ExtToLoader: `getLoader` is modelled as synchronous and always producing the instance passed in. The default (`new this.loaderClasses[ loaderName ]( manager )`, `new THREE[ loaderName ]( manager )`) throws a TypeError when that loader class is not loaded, and most format loaders are not part of the three.js core build. On that path nothing is cached, neither `onLoad` nor `onError` runs, and the exception escapes `load` or `parse`; the model does not cover it, and this applies equally to `UmdModelLoader.Load` and `CachingModelLoader.WithLoader`, `Load` and `Parse`. The demo page replaces `getLoader` with an asynchronous override, which can create a loader twice when requests overlap.
- CachingModelLoader.CloneResult: `fields` stands for a value's own enumerable properties, which `Object.assign` copies. Which properties are own or enumerable is not modelled: what a copy loses through the dropped prototype (`isBufferGeometry`, the methods) is recorded only by the `plain` flag. The copy is also shallow: nested values (a geometry's `attributes`, Collada's `animations` and `library`) and the geometry and material an `Object3D.clone()` keeps are shared between the cache and what `onLoad` and every later hit deliver, so a consumer that changes them in place, such as `computeVertexNormals()`, changes the cache too. `fields` is a value, so the model does not show this sharing.
- CachingModelLoader.Load: the cache key (`toCacheKey`, a DOM URL resolution) is a parameter. A record whose `scene` key is present but `undefined` makes `cloneResult` throw; it is modelled as having no scene.
- DropDemo.ModifyUrl: returns the matched cleaned name. The `files[ fileName ]` lookup and object-URL creation are not modelled. That lookup misses when cleaning changed a key, e.g. `/./a`.
- DropDemo.SourceAfterDrop: takes file names in `Object.keys` order. Integer-like keys, which JavaScript orders first, are not modelled.
- DropDemo.OnDrop: the lighter ambient colour (`THREE.Color.lerp`, floating point) and the page's style change are not modelled. The directory recursion of `dataTransferToFiles` and the demo's error and `model-change` listeners are asynchronous DOM plumbing and are not modelled either.
- ModelViewerElement.Frame: the shadow-camera fitting, `_addModel`'s bounding-box scaling and material swap, `controls.update()` and the camera aspect are floating-point three.js work and are not modelled. Of `_addModel` only the stored model and the final `_dirty = true` are modelled; of the render loop only the dirty flag, the renderer size and the light's `castShadow`.
- ModelViewerElement.AttributeChanged: uses `LoadModel` as written. `LoadModelCancelling` is the corrected variant of the finding below.
- ModelViewerElement.New: `_dirty` starts `undefined` in the source and is modelled as `false`. The `connectedCallback` style tag and canvas insertion are not modelled.
- The root model-viewer-element.js, example/ZipServer.js and rollup.config.js are not part of this model. The first is an older variant that references undefined names. The second registers a service worker. The third is build configuration.

## Findings

| source | as written | input that shows it | evidently intended | confidence | as-written member | corrected member |
|---|---|---|---|---|---|---|
| umd/ModelLoader.js:96 | `parse` calls the three-parameter `extToLoader( ext, loaderCb, onError )` with four arguments, so the manager takes the place of `loaderCb` | `parse( data, 'stl', onLoad, onError )`: `extToLoader` calls the manager as a function; with an unknown extension the arrow function gets an Error and calls `.parse` on it | `extToLoader( ext, loader => onLoad( … ), onError )`, as ModelLoader.js does it | high, not executed | UmdModelLoader.ParseAsWritten | UmdModelLoader.Parse |
| src/ModelLoader.js:72 | `canLoadModel` tests with `in`, which also sees inherited `Object.prototype` names | `canLoadModel( 'toString' )` or `canLoadModel( 'a.constructor' )` with no callbacks registered returns true | only registered extensions are accepted, in agreement with `load` | high, not executed | EsModelLoader.CanLoadModelAsWritten | EsModelLoader.CanLoadModel |
| umd/model-viewer-element.js:334-342 | clearing `src` removes the model but does not advance `_requestId` | set `src` to `a.stl`, then to `''` before the load finishes: the pending load still shows its model while `src` is empty | any change of `src` retires the pending request | medium, not executed | ModelViewerElement.ClearedSrcStillAcceptsPendingLoad | ModelViewerElement.LoadModelCancelling |

=== FILE: caching_model_loader.dfy ===
/** ModelLoader.js: the older global `THREE.ModelLoader`, which besides the loader cache keeps
    a per-URL cache of loaded results (`modelCache`) and re-delivers clones of them.
    three.js objects are the opaque type `N`, their `clone()` the function `clone`, and the
    remaining fields of a loader's result record the opaque type `A`. */
module CachingModelLoader {
  import opened Wrappers
  import opened Extension
  import LoaderTable
  import LoaderCache

  /** One argument a loader passes to its `onLoad`: a three.js object (`isObject3D`), or any
      other value, which may carry a `scene` object next to its own fields. `plain` tells a
      plain object from an instance of a class such as `BufferGeometry`, whose prototype
      supplies `isBufferGeometry` and the methods. */
  datatype Item<N, A> = Object3D(node: N) | Record(scene: Option<N>, fields: A, plain: bool)

  /** One element of `cloneResult`: `r.clone()` for a three.js object; for anything else
      `Object.assign( {}, r, … )`, a plain object with the same own fields, whose `scene`, if
      it has one, is cloned. The prototype is not copied. */
  function CloneItem<N, A>(item: Item<N, A>, clone: N -> N): Item<N, A>
  {
    match item
    case Object3D(n) => Object3D(clone(n))
    case Record(Some(s), fields, _) => Record(Some(clone(s)), fields, true)
    case Record(None, fields, _) => Record(None, fields, true)
  }

  /** `cloneResult( argsarr )`. */
  function CloneResult<N, A>(args: seq<Item<N, A>>, clone: N -> N): (r: seq<Item<N, A>>)
    ensures |r| == |args|
    ensures forall i :: 0 <= i < |args| ==>
      && r[i].Object3D? == args[i].Object3D?
      && (args[i].Object3D? ==> r[i].node == clone(args[i].node))
      && (args[i].Record? ==> r[i].fields == args[i].fields && r[i].scene.Some? == args[i].scene.Some?)
      && (args[i].Record? ==> r[i].plain)
      && (args[i].Record? && args[i].scene.Some? ==> r[i].scene.value == clone(args[i].scene.value))
  {
    seq(|args|, i requires 0 <= i < |args| => CloneItem(args[i], clone))
  }

  /** Cloning works element by element, so it commutes with concatenation. */
  lemma CloneResultConcat<N, A>(a: seq<Item<N, A>>, b: seq<Item<N, A>>, clone: N -> N)
    ensures CloneResult(a + b, clone) == CloneResult(a, clone) + CloneResult(b, clone)
  {
  }

  /** Only three.js objects and scenes go through `clone`: with a `clone` that changed
      nothing, `cloneResult` gives back its argument except that every record becomes a
      plain object. So a list of three.js objects and plain records comes back unchanged,
      while a class instance, such as the `BufferGeometry` of STLLoader, comes back without
      its prototype. */
  lemma CloneResultOnlyClonesObjects<N, A>(args: seq<Item<N, A>>, clone: N -> N)
    requires forall n :: clone(n) == n
    ensures var r := CloneResult(args, clone);
      forall i :: 0 <= i < |args| ==> r[i] == (if args[i].Record? then args[i].(plain := true) else args[i])
    ensures (forall i :: 0 <= i < |args| ==> args[i].Object3D? || args[i].plain) ==> CloneResult(args, clone) == args
    ensures (exists i :: 0 <= i < |args| && args[i].Record? && !args[i].plain) ==> CloneResult(args, clone) != args
  {
    var r := CloneResult(args, clone);
    forall i | 0 <= i < |args|
      ensures r[i] == (if args[i].Record? then args[i].(plain := true) else args[i])
    {
      match args[i]
      case Object3D(n) =>
      case Record(s, f, p) =>
    }
  }

  /** The loader's state: the result cache keyed by resolved URL (`toCacheKey( url )`, whose
      DOM-based resolution is left to the caller) and the loader instance cache. */
  datatype State<L, N, A> = State(modelCache: map<string, seq<Item<N, A>>>, cachedLoaders: map<string, L>)

  /** A call the loader makes. `DeliverNextFrame` is the `requestAnimationFrame` callback that
      hands cached clones to `onLoad`. */
  datatype Call<L, N, A> =
    | DeliverNextFrame(args: seq<Item<N, A>>)
    | GetLoader(name: string)
    | LoaderLoad(loader: L, url: string)
    | LoaderParse(loader: L)
    | OnLoad(args: seq<Item<N, A>>)
    | OnError(message: string)

  datatype Step<L, N, A> = Step(state: State<L, N, A>, calls: seq<Call<L, N, A>>)

  /** The loader instance for an extension on the older table (no VRML), then `continuation`. */
  function WithLoader<L, N, A>(st: State<L, N, A>, ext: Option<string>, instance: L, continuation: L -> seq<Call<L, N, A>>): (r: Step<L, N, A>)
    ensures r.state.modelCache == st.modelCache
    ensures var lookup := LoaderCache.ExtToLoader(LoaderTable.LegacyLoaderMap, st.cachedLoaders, ext, instance);
      && r.state.cachedLoaders == lookup.cache
      && (lookup.outcome.NotFound? ==> r.calls == [OnError(lookup.outcome.error.Message())])
      && (lookup.outcome.Found? ==>
            r.calls == (if lookup.outcome.created then [GetLoader(lookup.outcome.name)] else []) + continuation(lookup.outcome.loader))
    ensures var name := LoaderCache.LoaderNameFor(LoaderTable.LegacyLoaderMap, ext);
      && (name.None? ==> r.state == st)
      && (name.Some? && name.value in st.cachedLoaders ==>
            r.state == st && r.calls == continuation(st.cachedLoaders[name.value]))
      && (name.Some? && name.value !in st.cachedLoaders ==>
            && r.state.cachedLoaders == st.cachedLoaders[name.value := instance]
            && r.calls == [GetLoader(name.value)] + continuation(instance))
  {
    var lookup := LoaderCache.ExtToLoader(LoaderTable.LegacyLoaderMap, st.cachedLoaders, ext, instance);
    match lookup.outcome
    case NotFound(e) => Step(st.(cachedLoaders := lookup.cache), [OnError(e.Message())])
    case Found(loader, name, created) =>
      Step(st.(cachedLoaders := lookup.cache), (if created then [GetLoader(name)] else []) + continuation(loader))
  }

  /** `load( url, onLoad, onProgress, onError, extOverride )` with `key` = `toCacheKey( url )`.
      A cached key delivers clones of the cached entry on the next frame and does nothing else;
      otherwise the lookup and `loader.load` proceed as in the umd loader, and the result
      cache is not touched until the loader reports back. */
  function Load<L, N, A>(st: State<L, N, A>, url: string, key: string, extOverride: Option<string>, instance: L, clone: N -> N): (r: Step<L, N, A>)
    ensures key in st.modelCache ==>
      r == Step(st, [DeliverNextFrame(CloneResult(st.modelCache[key], clone))])
    ensures key !in st.modelCache ==>
      && r.state.modelCache == st.modelCache
      && forall i :: 0 <= i < |r.calls| ==> !r.calls[i].DeliverNextFrame? && !r.calls[i].OnLoad?
    ensures key !in st.modelCache ==>
      var name := LoaderCache.LoaderNameFor(LoaderTable.LegacyLoaderMap, OrElse(extOverride, ExtractExtension(url)));
      && (name.None? ==> r.calls == [OnError(LoaderCache.NoLoaderSpecified(
            LoaderCache.NormalizeExt(OrElse(extOverride, ExtractExtension(url)))).Message())])
      && (name.None? ==> r.state == st)
      && (name.Some? && name.value in st.cachedLoaders ==>
            && r.state == st
            && r.calls == [LoaderLoad(st.cachedLoaders[name.value], url)])
      && (name.Some? && name.value !in st.cachedLoaders ==>
            && r.state == st.(cachedLoaders := st.cachedLoaders[name.value := instance])
            && r.calls == [GetLoader(name.value), LoaderLoad(instance, url)])
  {
    if key in st.modelCache then
      Step(st, [DeliverNextFrame(CloneResult(st.modelCache[key], clone))])
    else
      var ext := OrElse(extOverride, ExtractExtension(url));
      WithLoader(st, ext, instance, loader => [LoaderLoad(loader, url)])
  }

  /** The loader's success callback: `modelCache[ key ]` gets a clone of the arguments and
      `onLoad` gets the originals. */
  function LoadSucceeded<L, N, A>(st: State<L, N, A>, key: string, args: seq<Item<N, A>>, clone: N -> N): (r: Step<L, N, A>)
    ensures r.calls == [OnLoad(args)]
    ensures key in r.state.modelCache && r.state.modelCache[key] == CloneResult(args, clone)
    ensures forall k :: k != key ==> (k in r.state.modelCache <==> k in st.modelCache)
    ensures forall k :: k != key && k in st.modelCache ==> r.state.modelCache[k] == st.modelCache[k]
    ensures r.state.cachedLoaders == st.cachedLoaders
  {
    Step(st.(modelCache := st.modelCache[key := CloneResult(args, clone)]), [OnLoad(args)])
  }

  /** The loader's error callback is the caller's `onError`: nothing is cached. */
  function LoadFailed<L, N, A>(st: State<L, N, A>, message: string): (r: Step<L, N, A>)
    ensures r.state == st
    ensures r.calls == [OnError(message)]
  {
    Step(st, [OnError(message)])
  }

  /** `parse( data, ext, onLoad, onError )`: `onLoad( loader.parse( data ) )`; results of
      `parse` are never cached. */
  function Parse<L, N, A>(st: State<L, N, A>, ext: Option<string>, instance: L): (r: Step<L, N, A>)
    ensures r.state.modelCache == st.modelCache
    ensures |r.calls| >= 1
    ensures r.calls[|r.calls| - 1].OnError? || r.calls[|r.calls| - 1].LoaderParse?
    ensures r.calls[|r.calls| - 1].OnError? <==> LoaderCache.LoaderNameFor(LoaderTable.LegacyLoaderMap, ext).None?
    ensures var name := LoaderCache.LoaderNameFor(LoaderTable.LegacyLoaderMap, ext);
      && (name.None? ==>
            && r.state == st
            && r.calls == [OnError(LoaderCache.NoLoaderSpecified(LoaderCache.NormalizeExt(ext)).Message())])
      && (name.Some? && name.value in st.cachedLoaders ==>
            r.state == st && r.calls == [LoaderParse(st.cachedLoaders[name.value])])
      && (name.Some? && name.value !in st.cachedLoaders ==>
            && r.state == st.(cachedLoaders := st.cachedLoaders[name.value := instance])
            && r.calls == [GetLoader(name.value), LoaderParse(instance)])
  {
    WithLoader(st, ext, instance, loader => [LoaderParse(loader)])
  }

  /** `clearCache()`. */
  function ClearCache<L, N, A>(st: State<L, N, A>): (r: State<L, N, A>)
    ensures r.modelCache == map[]
    ensures r.cachedLoaders == st.cachedLoaders
  {
    st.(modelCache := map[])
  }

  /** After a successful load, loading any URL with the same cache key is a hit: the next
      frame delivers clones of the stored clone, and neither loader cache nor result cache
      changes. */
  lemma HitAfterSuccess<L, N, A>(st: State<L, N, A>, key: string, args: seq<Item<N, A>>, url: string, extOverride: Option<string>, instance: L, clone: N -> N)
    ensures var stored := LoadSucceeded(st, key, args, clone).state;
      Load(stored, url, key, extOverride, instance, clone) ==
        Step(stored, [DeliverNextFrame(CloneResult(CloneResult(args, clone), clone))])
  {
  }

  /** After `clearCache`, every load is a miss: nothing is delivered from the cache. */
  lemma ClearCacheForcesMiss<L, N, A>(st: State<L, N, A>, url: string, key: string, extOverride: Option<string>, instance: L, clone: N -> N)
    ensures var r := Load(ClearCache(st), url, key, extOverride, instance, clone);
      && r.state.modelCache == map[]
      && forall i :: 0 <= i < |r.calls| ==> !r.calls[i].DeliverNextFrame?
  {
  }

  /** A load that fails, whether in the lookup or in the format loader, leaves the result
      cache as it was. */
  lemma ErrorPathNeverCaches<L, N, A>(st: State<L, N, A>, url: string, key: string, extOverride: Option<string>, instance: L, clone: N -> N, message: string)
    ensures Load(st, url, key, extOverride, instance, clone).state.modelCache == st.modelCache
    ensures var started := Load(st, url, key, extOverride, instance, clone).state;
      LoadFailed(started, message).state.modelCache == st.modelCache
  {
  }
}

=== FILE: drop_demo.dfy ===
/** example/index.js: the drag-and-drop demo page. Modelled are the path normalisation
    (`cleanFilePath`), the URL modifier that serves dropped files by suffix, the choice of
    the model to display, the file table of the non-webkit fallback and the background
    colour rotation. */
module DropDemo {
  import opened Wrappers
  import opened Text
  import LoaderTable

  // ----- cleanFilePath -----

  /** One step of the `reduce`: `..` pops the last kept segment (nothing when there is none),
      `.` is skipped, anything else, the empty segment included, is kept. */
  function Push(kept: seq<string>, el: string): seq<string>
  {
    if el == ".." then (if |kept| == 0 then kept else kept[..|kept| - 1])
    else if el == "." then kept
    else kept + [el]
  }

  /** The `reduce` over the segments, from the left. */
  function Fold(kept: seq<string>, segs: seq<string>): seq<string>
    decreases |segs|
  {
    if segs == [] then kept else Fold(Push(kept, segs[0]), segs[1..])
  }

  lemma {:induction false} FoldAppend(kept: seq<string>, a: seq<string>, b: seq<string>)
    ensures Fold(kept, a + b) == Fold(Fold(kept, a), b)
    decreases |a|
  {
    if a == [] {
      assert a + b == b;
    } else {
      assert (a + b)[0] == a[0];
      assert (a + b)[1..] == a[1..] + b;
      FoldAppend(Push(kept, a[0]), a[1..], b);
    }
  }

  /** A segment `cleanFilePath` keeps: not `.` or `..`, and free of both slashes. */
  predicate PlainSegment(s: string)
  {
    s != "." && s != ".." && '/' !in s && '\\' !in s
  }

  predicate AllPlain(segs: seq<string>)
  {
    forall i :: 0 <= i < |segs| ==> PlainSegment(segs[i])
  }

  /** The path with backslashes turned into `/`, split on `/`. */
  function Segments(path: string): (r: seq<string>)
    ensures |r| >= 1
    ensures forall i :: 0 <= i < |r| ==> '/' !in r[i] && '\\' !in r[i]
  {
    var unified := ReplaceChar(path, '\\', '/');
    ReplaceCharRemoves(path, '\\', '/');
    SplitAvoids(unified, '/', '\\');
    Split(unified, '/')
  }

  /** The segments `cleanFilePath` keeps, before they are joined. */
  function KeptSegments(path: string): seq<string>
  {
    Fold([], Segments(path))
  }

  /** `cleanFilePath( path )`: the kept segments joined with `/`. No backslash survives, and
      splitting the result on `/` gives back exactly the kept segments. */
  function CleanFilePath(path: string): (r: string)
    ensures '\\' !in r
    ensures |KeptSegments(path)| >= 1 ==> Split(r, '/') == KeptSegments(path)
    ensures |KeptSegments(path)| == 0 ==> r == ""
  {
    var kept := KeptSegments(path);
    KeptSegmentsPlain(path);
    JoinAvoids(kept, '/', '\\');
    if |kept| >= 1 then
      SplitJoin(kept, '/');
      Join(kept, '/')
    else Join(kept, '/')
  }

  /** Folding slash-free segments onto plain ones leaves only plain ones. */
  lemma {:induction false} FoldKeepsPlain(kept: seq<string>, segs: seq<string>)
    requires AllPlain(kept)
    requires forall i :: 0 <= i < |segs| ==> '/' !in segs[i] && '\\' !in segs[i]
    ensures AllPlain(Fold(kept, segs))
    decreases |segs|
  {
    if segs != [] {
      var next := Push(kept, segs[0]);
      assert AllPlain(next) by {
        if segs[0] == ".." && |kept| > 0 {
          assert forall i :: 0 <= i < |next| ==> next[i] == kept[i];
        }
      }
      FoldKeepsPlain(next, segs[1..]);
    }
  }

  /** Folding plain segments only appends them. */
  lemma {:induction false} FoldPlain(kept: seq<string>, segs: seq<string>)
    requires AllPlain(segs)
    ensures Fold(kept, segs) == kept + segs
    decreases |segs|
  {
    if segs != [] {
      FoldPlain(kept + [segs[0]], segs[1..]);
      assert kept + [segs[0]] + segs[1..] == kept + segs;
    }
  }

  lemma KeptSegmentsPlain(path: string)
    ensures AllPlain(KeptSegments(path))
  {
    FoldKeepsPlain([], Segments(path));
  }

  /** The cleaned path has no backslash, and splitting it on `/` gives no `.` or `..`
      segment: the kept segments themselves, or the single empty segment when none is kept. */
  lemma CleanFilePathShape(path: string)
    ensures '\\' !in CleanFilePath(path)
    ensures var segs := Split(CleanFilePath(path), '/');
      forall i :: 0 <= i < |segs| ==> segs[i] != "." && segs[i] != ".."
    ensures |KeptSegments(path)| >= 1 ==> Split(CleanFilePath(path), '/') == KeptSegments(path)
    ensures |KeptSegments(path)| == 0 ==> CleanFilePath(path) == ""
  {
    var kept := KeptSegments(path);
    KeptSegmentsPlain(path);
    JoinAvoids(kept, '/', '\\');
    if |kept| >= 1 {
      SplitJoin(kept, '/');
    }
  }

  /** `cleanFilePath` is idempotent. */
  lemma CleanFilePathIdempotent(path: string)
    ensures CleanFilePath(CleanFilePath(path)) == CleanFilePath(path)
  {
    var kept := KeptSegments(path);
    var clean := CleanFilePath(path);
    CleanFilePathShape(path);
    ReplaceCharAbsent(clean, '\\', '/');
    if |kept| >= 1 {
      assert Segments(clean) == kept;
      KeptSegmentsPlain(path);
      FoldPlain([], kept);
      assert [] + kept == kept;
    } else {
      assert Segments(clean) == Split("", '/') == [""];
      assert KeptSegments(clean) == [""];
    }
  }

  /** Appending one more segment to a path acts on the kept segments exactly as the
      `reduce` step says: `..` removes the last kept segment and does nothing when none is
      left, `.` does nothing, any other segment is appended. */
  lemma KeptSegmentsAppend(path: string, seg: string)
    requires '/' !in seg && '\\' !in seg
    ensures seg == ".." ==>
      KeptSegments(path + "/" + seg) ==
        (if |KeptSegments(path)| == 0 then [] else KeptSegments(path)[..|KeptSegments(path)| - 1])
    ensures seg == "." ==> KeptSegments(path + "/" + seg) == KeptSegments(path)
    ensures PlainSegment(seg) ==> KeptSegments(path + "/" + seg) == KeptSegments(path) + [seg]
  {
    var full := path + "/" + seg;
    var u := ReplaceChar(path, '\\', '/');
    ReplaceCharConcat(path + "/", seg, '\\', '/');
    ReplaceCharConcat(path, "/", '\\', '/');
    ReplaceCharAbsent(seg, '\\', '/');
    assert ReplaceChar("/", '\\', '/') == "/";
    assert ReplaceChar(full, '\\', '/') == u + ['/'] + seg;
    SplitConcat(u, '/', seg);
    SplitAtom(seg, '/');
    assert Segments(full) == Segments(path) + [seg];
    FoldAppend([], Segments(path), [seg]);
  }

  // ----- the URL modifier -----

  /** The filter of the URL modifier: compare the last `min( |name|, |cleaned| )` characters. */
  predicate SameEnding(name: string, cleaned: string)
  {
    var len := if |name| < |cleaned| then |name| else |cleaned|;
    cleaned[|cleaned| - len..] == name[|name| - len..]
  }

  /** The filter holds exactly when one of the two strings is a suffix of the other. */
  lemma SameEndingIff(name: string, cleaned: string)
    ensures SameEnding(name, cleaned) <==> EndsWith(cleaned, name) || EndsWith(name, cleaned)
  {
  }

  /** What the URL modifier returns: an object URL for a dropped file, or the URL unchanged. */
  datatype Resolution = BlobFor(fileName: string) | Unchanged(url: string)

  /** The URL modifier: the last of the cleaned file names that matches the cleaned URL, by
      the filter above, is served; with no match the URL goes through untouched. */
  method ModifyUrl(fileNames: seq<string>, url: string) returns (r: Resolution)
    ensures r.Unchanged? <==> forall j :: 0 <= j < |fileNames| ==> !SameEnding(fileNames[j], CleanFilePath(url))
    ensures r.Unchanged? ==> r.url == url
    ensures r.BlobFor? ==>
      exists i :: (0 <= i < |fileNames| && fileNames[i] == r.fileName
        && SameEnding(fileNames[i], CleanFilePath(url))
        && forall j :: i < j < |fileNames| ==> !SameEnding(fileNames[j], CleanFilePath(url)))
  {
    var found := LastSameEnding(fileNames, CleanFilePath(url));
    match found
    case None => r := Unchanged(url);
    case Some(i) => r := BlobFor(fileNames[i]);
  }

  /** The index of the last name that matches `cleaned` by the filter, if any. */
  method LastSameEnding(fileNames: seq<string>, cleaned: string) returns (found: Option<nat>)
    ensures found.None? <==> forall j :: 0 <= j < |fileNames| ==> !SameEnding(fileNames[j], cleaned)
    ensures found.Some? ==> found.value < |fileNames| && SameEnding(fileNames[found.value], cleaned)
    ensures found.Some? ==> forall j :: found.value < j < |fileNames| ==> !SameEnding(fileNames[j], cleaned)
  {
    found := None;
    var k := 0;
    while k < |fileNames|
      invariant 0 <= k <= |fileNames|
      invariant found.None? ==> forall j :: 0 <= j < k ==> !SameEnding(fileNames[j], cleaned)
      invariant found.Some? ==> found.value < k && SameEnding(fileNames[found.value], cleaned)
      invariant found.Some? ==> forall j :: found.value < j < k ==> !SameEnding(fileNames[j], cleaned)
    {
      if SameEnding(fileNames[k], cleaned) {
        found := Some(k);
      }
      k := k + 1;
    }
  }

  // ----- choosing the model to display -----

  /** `extregex.test( n )` for `/(k1|k2|…)$/i` built from lower-case table keys: the name
      ends, ignoring ASCII case, with one of the keys. No dot is needed before it. */
  predicate HasLoaderSuffix(name: string, keys: set<string>)
  {
    exists k :: k in keys && EndsWith(ToLower(name), k)
  }

  /** `filesNames.filter( n => extregex.test( n ) ).shift()`: the first matching name. */
  function FirstWithLoaderSuffix(names: seq<string>, keys: set<string>): (r: Option<nat>)
    ensures r.Some? ==> r.value < |names| && HasLoaderSuffix(names[r.value], keys)
    ensures r.Some? ==> forall j :: 0 <= j < r.value ==> !HasLoaderSuffix(names[j], keys)
    ensures r.None? <==> forall j :: 0 <= j < |names| ==> !HasLoaderSuffix(names[j], keys)
    decreases |names|
  {
    if names == [] then None
    else if HasLoaderSuffix(names[0], keys) then Some(0)
    else match FirstWithLoaderSuffix(names[1..], keys)
      case None => None
      case Some(i) => Some(i + 1)
  }

  /** The value `viewer.src` is set to after a drop: the first dropped name the loader can
      handle, or, when there is none, `undefined`, which the attribute stores as the string
      "undefined". */
  function SourceAfterDrop(names: seq<string>): (src: string)
    ensures FirstWithLoaderSuffix(names, LoaderTable.LoaderMap.Keys).Some? ==>
      src == names[FirstWithLoaderSuffix(names, LoaderTable.LoaderMap.Keys).value]
    ensures FirstWithLoaderSuffix(names, LoaderTable.LoaderMap.Keys).None? ==> src == "undefined"
  {
    match FirstWithLoaderSuffix(names, LoaderTable.LoaderMap.Keys)
    case Some(i) => names[i]
    case None => "undefined"
  }

  /** Because the pattern needs no dot, any name ending in `x` or `X` (the DirectX key) is a
      candidate, and so is any name ending in a key in upper case. */
  lemma NoDotRequired(prefix: string)
    ensures HasLoaderSuffix(prefix + "x", LoaderTable.LoaderMap.Keys)
    ensures HasLoaderSuffix(prefix + "X", LoaderTable.LoaderMap.Keys)
    ensures HasLoaderSuffix(prefix + "GLTF", LoaderTable.LoaderMap.Keys)
  {
    ToLowerConcat(prefix, "x");
    ToLowerConcat(prefix, "X");
    ToLowerConcat(prefix, "GLTF");
    assert ToLower("X") == "x" && ToLower("x") == "x";
    assert ToLower("GLTF") == "gltf";
    EndsWithConcat(ToLower(prefix), "x");
    EndsWithConcat(ToLower(prefix), "gltf");
    assert "x" in LoaderTable.LoaderMap.Keys && "gltf" in LoaderTable.LoaderMap.Keys;
  }

  // ----- the non-webkit fallback -----

  /** A dropped `File`, reduced to its name and byte size. */
  datatype DroppedFile = DroppedFile(name: string, size: nat)

  /** The `files` object: its keys in insertion order and their values. */
  datatype FileTable = FileTable(order: seq<string>, files: map<string, DroppedFile>)

  /** Whether a dropped file is stored under `key` by `files[ '/' + f.name ] = f`. */
  predicate StoredUnder(f: DroppedFile, key: string)
  {
    f.size != 0 && "/" + f.name == key
  }

  /** The file table is consistent: each key is listed once in the order, and the order
      lists exactly the keys. */
  ghost predicate WellOrdered(t: FileTable)
  {
    && (forall i, j :: 0 <= i < j < |t.order| ==> t.order[i] != t.order[j])
    && (forall k :: k in t.files <==> k in t.order)
  }

  /** `files[ key ] = f`: a new key goes to the end of the key order, an old one keeps its
      place; either way the key now holds `f` and no other key changes. */
  function Assign(t: FileTable, key: string, f: DroppedFile): (r: FileTable)
    ensures WellOrdered(t) ==> WellOrdered(r)
    ensures key !in t.files ==> r.order == t.order + [key]
    ensures key in t.files ==> r.order == t.order
    ensures key in r.files && r.files[key] == f
    ensures forall k :: k != key ==> (k in r.files <==> k in t.files)
    ensures forall k :: k != key && k in t.files ==> r.files[k] == t.files[k]
  {
    if key in t.files then FileTable(t.order, t.files[key := f])
    else
      FileTable(t.order + [key], t.files[key := f])
  }

  /** `dtfiles.filter( f => f.size !== 0 ).forEach( f => files[ '/' + f.name ] = f )`. */
  function FallbackFiles(dropped: seq<DroppedFile>): (t: FileTable)
    ensures WellOrdered(t)
    decreases |dropped|
  {
    if dropped == [] then FileTable([], map[])
    else
      var f := dropped[|dropped| - 1];
      var t := FallbackFiles(dropped[..|dropped| - 1]);
      if f.size != 0 then Assign(t, "/" + f.name, f) else t
  }

  /** File `i` is the last of `dropped` stored under `key`. */
  predicate LastStored(dropped: seq<DroppedFile>, i: int, key: string)
  {
    && 0 <= i < |dropped|
    && StoredUnder(dropped[i], key)
    && forall j :: i < j < |dropped| ==> !StoredUnder(dropped[j], key)
  }

  /** What the last dropped file does to the table built from the ones before it. */
  lemma FallbackFilesLast(dropped: seq<DroppedFile>)
    requires dropped != []
    ensures var f := dropped[|dropped| - 1];
      var t0 := FallbackFiles(dropped[..|dropped| - 1]);
      var t := FallbackFiles(dropped);
      && (f.size != 0 && "/" + f.name !in t0.files ==> t.order == t0.order + ["/" + f.name])
      && (!(f.size != 0 && "/" + f.name !in t0.files) ==> t.order == t0.order)
      && (forall k :: k in t.files <==> k in t0.files || StoredUnder(f, k))
      && (forall k :: k in t.files && !StoredUnder(f, k) ==> t.files[k] == t0.files[k])
      && (forall k :: k in t.files && StoredUnder(f, k) ==> t.files[k] == f)
  {
  }

  /** Every non-empty file of `dropped` is stored under `/` + its name in `t`. */
  ghost predicate StoresEveryFile(dropped: seq<DroppedFile>, t: FileTable)
  {
    forall f :: f in dropped && f.size != 0 ==> "/" + f.name in t.files
  }

  /** `f` is the last file of `dropped` stored under `key`. */
  ghost predicate IsLastFile(dropped: seq<DroppedFile>, key: string, f: DroppedFile)
  {
    exists i :: LastStored(dropped, i, key) && dropped[i] == f
  }

  /** Every key of `t` holds the last file of `dropped` stored under it. */
  ghost predicate HoldsLastFile(dropped: seq<DroppedFile>, t: FileTable)
  {
    forall k :: k in t.files ==> IsLastFile(dropped, k, t.files[k])
  }

  /** The last file stored under a key stays the last when a file not stored under it is
      dropped after it. */
  lemma LastStoredExtend(dropped: seq<DroppedFile>, i: int, key: string)
    requires dropped != [] && LastStored(dropped[..|dropped| - 1], i, key)
    requires !StoredUnder(dropped[|dropped| - 1], key)
    ensures LastStored(dropped, i, key) && dropped[i] == dropped[..|dropped| - 1][i]
  {
    assert forall j :: 0 <= j < |dropped| - 1 ==> dropped[..|dropped| - 1][j] == dropped[j];
  }

  /** Dropping `f` after `before` keeps every file stored when the table only grows and takes
      in `f`'s own key. */
  lemma StoresEveryFileStep(before: seq<DroppedFile>, f: DroppedFile, t0: FileTable, t: FileTable)
    requires StoresEveryFile(before, t0)
    requires forall k :: k in t0.files ==> k in t.files
    requires f.size != 0 ==> "/" + f.name in t.files
    ensures StoresEveryFile(before + [f], t)
  {
    forall g | g in before + [f] && g.size != 0
      ensures "/" + g.name in t.files
    {
      if g in before {
        assert "/" + g.name in t0.files;
      }
    }
  }

  /** The last file dropped takes over its own key and leaves every other key's file the last
      one stored under it. */
  lemma HoldsLastFileStep(dropped: seq<DroppedFile>)
    requires dropped != [] && HoldsLastFile(dropped[..|dropped| - 1], FallbackFiles(dropped[..|dropped| - 1]))
    ensures HoldsLastFile(dropped, FallbackFiles(dropped))
  {
    var n := |dropped| - 1;
    var before := dropped[..n];
    var f := dropped[n];
    var t0 := FallbackFiles(before);
    var t := FallbackFiles(dropped);
    FallbackFilesLast(dropped);
    forall k | k in t.files
      ensures IsLastFile(dropped, k, t.files[k])
    {
      if StoredUnder(f, k) {
        assert LastStored(dropped, n, k);
      } else {
        assert k in t0.files && t.files[k] == t0.files[k];
        assert IsLastFile(before, k, t0.files[k]);
        var i :| LastStored(before, i, k) && before[i] == t0.files[k];
        LastStoredExtend(dropped, i, k);
        assert dropped[i] == t.files[k];
      }
    }
  }

  /** Every non-empty file is stored under `/` + its name, nothing else is stored, and of
      several files with the same name the last one wins. */
  lemma {:induction false} FallbackFilesContents(dropped: seq<DroppedFile>)
    ensures StoresEveryFile(dropped, FallbackFiles(dropped))
    ensures HoldsLastFile(dropped, FallbackFiles(dropped))
    decreases |dropped|
  {
    if dropped != [] {
      FallbackFilesContents(dropped[..|dropped| - 1]);
      var n := |dropped| - 1;
      FallbackFilesLast(dropped);
      assert StoredUnder(dropped[n], "/" + dropped[n].name) || dropped[n].size == 0;
      StoresEveryFileStep(dropped[..n], dropped[n], FallbackFiles(dropped[..n]), FallbackFiles(dropped));
      assert dropped[..n] + [dropped[n]] == dropped;
      HoldsLastFileStep(dropped);
    }
  }

  /** File `i` is the first of `dropped` stored under `key`. */
  predicate FirstStored(dropped: seq<DroppedFile>, i: int, key: string)
  {
    && 0 <= i < |dropped|
    && StoredUnder(dropped[i], key)
    && forall j :: 0 <= j < i ==> !StoredUnder(dropped[j], key)
  }

  /** Before the last file, being the first stored under a key means the same in the whole
      list and in the list without the last file. */
  lemma FirstStoredPrefix(dropped: seq<DroppedFile>, i: int, key: string)
    requires dropped != [] && i < |dropped| - 1
    ensures FirstStored(dropped, i, key) <==> FirstStored(dropped[..|dropped| - 1], i, key)
  {
    assert forall j :: 0 <= j < |dropped| - 1 ==> dropped[..|dropped| - 1][j] == dropped[j];
  }

  /** A key that is already in the table before the last file was first stored by an earlier
      file. */
  lemma FirstStoredOfListed(dropped: seq<DroppedFile>, i: int, key: string)
    requires dropped != [] && key in FallbackFiles(dropped[..|dropped| - 1]).files
    requires FirstStored(dropped, i, key)
    ensures i < |dropped| - 1 && FirstStored(dropped[..|dropped| - 1], i, key)
  {
    var before := dropped[..|dropped| - 1];
    FallbackFilesContents(before);
    assert IsLastFile(before, key, FallbackFiles(before).files[key]);
    var i' :| LastStored(before, i', key) && before[i'] == FallbackFiles(before).files[key];
    assert StoredUnder(dropped[i'], key);
    FirstStoredPrefix(dropped, i, key);
  }

  /** A key that is not yet in the table before the last file, and under which the last file
      is stored, has the last file as its first. */
  lemma FirstStoredOfNew(dropped: seq<DroppedFile>)
    requires dropped != []
    requires var f := dropped[|dropped| - 1];
      f.size != 0 && "/" + f.name !in FallbackFiles(dropped[..|dropped| - 1]).files
    ensures FirstStored(dropped, |dropped| - 1, "/" + dropped[|dropped| - 1].name)
  {
    var n := |dropped| - 1;
    var before := dropped[..n];
    var key := "/" + dropped[n].name;
    FallbackFilesContents(before);
    forall j | 0 <= j < n
      ensures !StoredUnder(dropped[j], key)
    {
      assert before[j] == dropped[j];
    }
  }

  /** Some file of `dropped` is stored under `key`, and so a first one. */
  ghost predicate HasFirstStored(dropped: seq<DroppedFile>, key: string)
  {
    exists i :: FirstStored(dropped, i, key)
  }

  /** Every key of `order` was stored by some file of `dropped`. */
  ghost predicate KeysStored(dropped: seq<DroppedFile>, order: seq<string>)
  {
    forall p :: 0 <= p < |order| ==> HasFirstStored(dropped, order[p])
  }

  /** A key listed before another in `order` had its first file dropped earlier. */
  ghost predicate InFirstDropOrder(dropped: seq<DroppedFile>, order: seq<string>)
  {
    forall p, q, i, j :: 0 <= p < q < |order| && FirstStored(dropped, i, order[p]) && FirstStored(dropped, j, order[q]) ==> i < j
  }

  /** Every listed key has a first file stored under it. */
  lemma {:induction false} FallbackFilesKeysStored(dropped: seq<DroppedFile>)
    ensures KeysStored(dropped, FallbackFiles(dropped).order)
    decreases |dropped|
  {
    if dropped != [] {
      var n := |dropped| - 1;
      var before := dropped[..n];
      var t0 := FallbackFiles(before);
      var t := FallbackFiles(dropped);
      FallbackFilesKeysStored(before);
      FallbackFilesLast(dropped);
      forall p | 0 <= p < |t.order|
        ensures HasFirstStored(dropped, t.order[p])
      {
        if p < |t0.order| {
          assert t.order[p] == t0.order[p];
          assert HasFirstStored(before, t0.order[p]);
          var i :| FirstStored(before, i, t0.order[p]);
          FirstStoredPrefix(dropped, i, t0.order[p]);
          assert FirstStored(dropped, i, t.order[p]);
        } else {
          var f := dropped[n];
          assert f.size != 0 && "/" + f.name !in t0.files;
          assert t.order[p] == "/" + f.name;
          FirstStoredOfNew(dropped);
          assert FirstStored(dropped, n, t.order[p]);
        }
      }
    }
  }

  /** The keys are listed in insertion order: a key listed before another had its first file
      dropped earlier. */
  lemma {:induction false} FallbackFilesOrder(dropped: seq<DroppedFile>)
    ensures InFirstDropOrder(dropped, FallbackFiles(dropped).order)
    decreases |dropped|
  {
    if dropped != [] {
      var n := |dropped| - 1;
      var before := dropped[..n];
      var t0 := FallbackFiles(before);
      var t := FallbackFiles(dropped);
      FallbackFilesOrder(before);
      FallbackFilesLast(dropped);
      forall p, q, i, j | 0 <= p < q < |t.order| && FirstStored(dropped, i, t.order[p]) && FirstStored(dropped, j, t.order[q])
        ensures i < j
      {
        assert t.order[p] == t0.order[p];
        assert t0.order[p] in t0.files;
        FirstStoredOfListed(dropped, i, t0.order[p]);
        if q < |t0.order| {
          assert t.order[q] == t0.order[q];
          assert t0.order[q] in t0.files;
          FirstStoredOfListed(dropped, j, t0.order[q]);
        } else {
          FirstStoredOfNew(dropped);
        }
      }
    }
  }

  // ----- background colours -----

  /** `bgColors` as the page starts. */
  const BackgroundColors: seq<string> := ["#FFC107", "#F06292", "#009688", "#3F51B5", "#CDDC39"]

  /** The colour a drop shows and the colour list afterwards. */
  datatype Recolor = Recolor(background: string, colors: seq<string>)

  /** `newcol = bgColors.shift(); bgColors.push( newcol )`: the head becomes the background
      and moves to the back. */
  function OnDrop(colors: seq<string>): (r: Recolor)
    requires |colors| > 0
    ensures r.background == colors[0]
    ensures |r.colors| == |colors|
    ensures multiset(r.colors) == multiset(colors)
    ensures forall i :: 0 <= i < |colors| - 1 ==> r.colors[i] == colors[i + 1]
    ensures r.colors[|colors| - 1] == colors[0]
  {
    assert colors == [colors[0]] + colors[1..];
    Recolor(colors[0], colors[1..] + [colors[0]])
  }

  /** The colour list after `k` drops, from the list `start`. */
  function ColorsAfter(start: seq<string>, k: nat): (r: seq<string>)
    requires |start| == 5
    ensures |r| == 5
  {
    if k == 0 then start else OnDrop(ColorsAfter(start, k - 1)).colors
  }

  /** The entry of the starting list that sits at position `i` after `k` drops. */
  function RotatedIndex(i: nat, k: nat): (j: nat)
    ensures j < 5
  {
    (i + k) % 5
  }

  lemma RotatedIndexStep(i: nat, k: nat)
    requires k > 0
    ensures i < 4 ==> RotatedIndex(i + 1, k - 1) == RotatedIndex(i, k)
    ensures i == 4 ==> RotatedIndex(0, k - 1) == RotatedIndex(i, k)
  {
  }

  /** After `k` drops the list is the starting list rotated left by `k`. */
  lemma {:induction false} ColorsAfterRotate(start: seq<string>, k: nat)
    requires |start| == 5
    ensures forall i :: 0 <= i < 5 ==> ColorsAfter(start, k)[i] == start[RotatedIndex(i, k)]
  {
    if k > 0 {
      ColorsAfterRotate(start, k - 1);
      var prev := ColorsAfter(start, k - 1);
      var cur := ColorsAfter(start, k);
      assert cur == OnDrop(prev).colors;
      forall i | 0 <= i < 5
        ensures cur[i] == start[RotatedIndex(i, k)]
      {
        RotatedIndexStep(i, k);
        if i < 4 {
          assert cur[i] == prev[i + 1];
        } else {
          assert cur[i] == prev[0];
        }
      }
    }
  }

  /** The `k`-th drop (counting from 0) shows colour `k mod 5` of the starting list, and
      five drops bring the list back to where it was. */
  lemma BackgroundOfDrop(k: nat)
    ensures OnDrop(ColorsAfter(BackgroundColors, k)).background == BackgroundColors[k % 5]
    ensures ColorsAfter(BackgroundColors, k + 5) == ColorsAfter(BackgroundColors, k)
  {
    ColorsAfterRotate(BackgroundColors, k);
    assert RotatedIndex(0, k) == k % 5;
    ColorsAfterRotate(BackgroundColors, k + 5);
    var a := ColorsAfter(BackgroundColors, k + 5);
    var b := ColorsAfter(BackgroundColors, k);
    forall i | 0 <= i < 5
      ensures a[i] == b[i]
    {
      assert RotatedIndex(i, k + 5) == RotatedIndex(i, k);
    }
  }
}

=== FILE: es_model_loader.dfy ===
/** src/ModelLoader.js: the ES-module ModelLoader, which dispatches on the URL's extension to a
    registry of load callbacks (`loaderCallbacks`). Callbacks are the opaque type `C`; what a
    call does is returned as a trace of the calls it makes. */
module EsModelLoader {
  import opened Wrappers
  import opened Extension
  import ResultShape

  /** A property of the `options` object: missing, present with `undefined`/`null`, or a string. */
  datatype Field = Missing | Present(value: Option<string>)

  /** The `options` argument of `load`, reduced to the `extension` property it reads. */
  datatype Options = Options(extension: Field)
  {
    /** `options.extension`, with a missing property read as `undefined`. */
    function Extension(): Option<string>
    {
      match extension
      case Missing => None
      case Present(v) => v
    }
  }

  /** `options = {}`. */
  const NoOptions := Options(Missing)

  /** The errors `load` passes to `onError`. */
  datatype LoadError = NoFileExtension | NoLoadCallback(ext: string)
  {
    function Message(): string
    {
      match this
      case NoFileExtension => "ModelLoader : No file extension found"
      case NoLoadCallback(ext) => "ModelLoader: No load callback provided for extension '" + ext + "'."
    }
  }

  /** A call `load` makes: `onError( error )`, or the registered callback
      `func( url, manager, onLoad', onProgress, onError, options )`. */
  datatype Call<C> = OnError(error: LoadError) | InvokeCallback(callback: C, url: string, options: Options)

  /** `getLoadCallback( ext, done )` with its default body: the callback registered under
      exactly `ext`, or `null`. Only the registry's own keys are consulted (see README). */
  function GetLoadCallback<C>(registry: map<string, C>, ext: string): (r: Option<C>)
    ensures r.Some? <==> ext in registry
    ensures r.Some? ==> r.value == registry[ext]
  {
    if ext in registry then Some(registry[ext]) else None
  }

  /** `options.extension || urlExt`. */
  function ChosenExtension(url: string, options: Options): (r: Option<string>)
    ensures Truthy(options.Extension()) ==> r == options.Extension()
    ensures !Truthy(options.Extension()) ==> r == ExtractExtension(url)
    ensures r.Some? ==> r.value != ""
  {
    OrElse(options.Extension(), ExtractExtension(url))
  }

  /** `load( url, onLoad, onProgress, onError, options )`: exactly one call, either the error
      or the callback registered for the chosen extension. */
  function Load<C>(registry: map<string, C>, url: string, options: Options): (r: seq<Call<C>>)
    ensures |r| == 1
    ensures r[0] == OnError(NoFileExtension) <==> !Truthy(options.Extension()) && ExtractExtension(url).None?
    ensures r[0].OnError? && r[0].error.NoLoadCallback? <==>
      ChosenExtension(url, options).Some? && ChosenExtension(url, options).value !in registry
    ensures r[0].OnError? && r[0].error.NoLoadCallback? ==> r[0].error.ext == ChosenExtension(url, options).value
    ensures r[0].InvokeCallback? <==>
      ChosenExtension(url, options).Some? && ChosenExtension(url, options).value in registry
    ensures r[0].InvokeCallback? ==>
      r[0] == InvokeCallback(registry[ChosenExtension(url, options).value], url, options)
  {
    match ChosenExtension(url, options)
    case None => [OnError(NoFileExtension)]
    case Some(ext) =>
      match GetLoadCallback(registry, ext)
      case Some(func) => [InvokeCallback(func, url, options)]
      case None => [OnError(NoLoadCallback(ext))]
  }

  /** The registry lookup is exact: a callback registered for `gltf` does not serve `a.GLTF`. */
  lemma LookupIsCaseSensitive<C>(func: C)
    ensures Load(map["gltf" := func], "a.GLTF", NoOptions) == [OnError(NoLoadCallback("GLTF"))]
    ensures Load(map["gltf" := func], "a.gltf", NoOptions) == [InvokeCallback(func, "a.gltf", NoOptions)]
  {
    var upper, lower := "GLTF", "gltf";
    var registry := map[lower := func];
    WordExtension("a", upper);
    WordExtension("a", lower);
    assert "a" + "." + upper == "a.GLTF";
    assert "a" + "." + lower == "a.gltf";
    assert upper !in registry by {
      assert upper[0] != lower[0];
    }
    assert GetLoadCallback(registry, upper) == None;
    assert GetLoadCallback(registry, lower) == Some(func);
  }

  /** A URL ending in `.` and a word of letters, with no extension option, chooses that word. */
  lemma WordExtension(prefix: string, word: string)
    requires word != "" && forall i :: 0 <= i < |word| ==> 'A' <= word[i] <= 'Z' || 'a' <= word[i] <= 'z'
    ensures ChosenExtension(prefix + "." + word, NoOptions) == Some(word)
  {
    ExtensionOfSuffix(prefix, word);
  }

  /** `onLoad( this.formResult( res ) )` when a load callback succeeds: `formResult` is called
      without an extension, so the record's `extension` is undefined. */
  function Completed<O>(res: ResultShape.Raw<O>, isGeometry: O -> bool): (r: ResultShape.Formed<O>)
    ensures r.extension == None
    ensures r.originalResult == res
    ensures res.scene.Some? ==> r.model.Source() == res.scene.value
    ensures res.scene.None? && res.obj.Some? ==> r.model.Source() == res.obj.value
    ensures res.scene.None? && res.obj.None? ==> r.model.Source() == res.itself
    ensures r.model.MeshOf? <==> isGeometry(r.model.Source())
    ensures r.model.MeshOf? ==> r.model.material == ResultShape.MeshPhong(ResultShape.White)
  {
    ResultShape.FormResult(res, None, isGeometry, ResultShape.MeshPhong(ResultShape.White))
  }

  /** `canLoadModel( urlOrExt )` reading only the registry's own keys: the string itself or
      its extension (with `null` looked up as "null") is a registered key. */
  function CanLoadModel<C>(registry: map<string, C>, urlOrExt: string): (r: bool)
    ensures r <==> || urlOrExt in registry
                   || (ExtractExtension(urlOrExt).Some? && ExtractExtension(urlOrExt).value in registry)
                   || (ExtractExtension(urlOrExt).None? && "null" in registry)
  {
    urlOrExt in registry || JsKey(ExtractExtension(urlOrExt)) in registry
  }

  /** `canLoadModel` agrees with `load`: for a URL that is not itself a key, with no "null"
      key registered and no extension option, a model can be loaded exactly when `load`
      would invoke a callback. */
  lemma CanLoadModelMatchesLoad<C>(registry: map<string, C>, url: string)
    requires url !in registry && "null" !in registry
    ensures CanLoadModel(registry, url) <==> Load(registry, url, NoOptions)[0].InvokeCallback?
  {
  }

  /** An extension registered directly is accepted, as is any URL ending in `.` plus it. */
  lemma CanLoadRegisteredExtension<C>(registry: map<string, C>, prefix: string, ext: string)
    requires ext in registry
    requires ext != "" && forall i :: 0 <= i < |ext| ==> IsExtChar(ext[i])
    ensures CanLoadModel(registry, ext)
    ensures CanLoadModel(registry, prefix + "." + ext)
  {
    ExtensionOfSuffix(prefix, ext);
  }

  /** Property names every plain JavaScript object inherits from `Object.prototype`. */
  const InheritedKeys: set<string> := {"constructor", "hasOwnProperty", "isPrototypeOf",
    "propertyIsEnumerable", "toLocaleString", "toString", "valueOf", "__proto__",
    "__defineGetter__", "__defineSetter__", "__lookupGetter__", "__lookupSetter__"}

  /** `key in object` for an object literal: its own keys and the inherited ones. */
  predicate InObjectLiteral<C>(registry: map<string, C>, key: string)
  {
    key in registry || key in InheritedKeys
  }

  /** `canLoadModel` as written, where `in` also sees inherited property names. */
  function CanLoadModelAsWritten<C>(registry: map<string, C>, urlOrExt: string): (r: bool)
    ensures CanLoadModel(registry, urlOrExt) ==> r
  {
    InObjectLiteral(registry, urlOrExt) || InObjectLiteral(registry, JsKey(ExtractExtension(urlOrExt)))
  }

  /** With nothing registered, the as-written `canLoadModel` still accepts `toString` and any
      URL ending in `.constructor`, though `load` has no callback for them. */
  lemma CanLoadModelAsWrittenAcceptsInherited<C>(empty: map<string, C>, prefix: string)
    requires empty == map[]
    ensures CanLoadModelAsWritten(empty, "toString") && !CanLoadModel(empty, "toString")
    ensures var url := prefix + ".constructor";
      CanLoadModelAsWritten(empty, url) && !CanLoadModel(empty, url)
  {
    assert "toString" in InheritedKeys;
    var ext := "constructor";
    assert forall i :: 0 <= i < |ext| ==> IsExtChar(ext[i]);
    ExtensionOfSuffix(prefix, ext);
    assert prefix + ".constructor" == prefix + "." + ext;
  }

  /** The two readings agree exactly on names that are not inherited property names. */
  lemma CanLoadModelAgreesOffPrototype<C>(registry: map<string, C>, urlOrExt: string)
    requires urlOrExt !in InheritedKeys
    requires JsKey(ExtractExtension(urlOrExt)) !in InheritedKeys
    ensures CanLoadModelAsWritten(registry, urlOrExt) == CanLoadModel(registry, urlOrExt)
  {
  }

  /** `Object.assign( { extension }, options )`: the argument supplies `extension` only when
      `options` has no such property of its own. */
  function MergeParseOptions(extension: Option<string>, options: Options): (r: Options)
    ensures options.extension.Present? ==> r == options
    ensures options.extension.Missing? ==> r.Extension() == extension
  {
    if options.extension.Missing? then Options(Present(extension)) else options
  }

  /** `parse( data, extension, onLoad, onError, options )`: `load` on the object URL of a blob
      holding `data` (the URL is supplied by the caller: `blobUrl`). */
  function Parse<C>(registry: map<string, C>, blobUrl: string, extension: Option<string>, options: Options): (r: seq<Call<C>>)
    ensures |r| == 1
    ensures var ext := if options.extension.Present? then options.Extension() else extension;
      var chosen := ChosenExtension(blobUrl, Options(Present(ext)));
      && (r[0].InvokeCallback? <==> chosen.Some? && chosen.value in registry)
      && (r[0].InvokeCallback? ==> r[0].callback == registry[chosen.value] && r[0].url == blobUrl)
      && (r[0].OnError? && r[0].error.NoLoadCallback? ==> chosen.Some? && r[0].error.ext == chosen.value)
      && (chosen.Some? && chosen.value !in registry ==> r[0] == OnError(NoLoadCallback(chosen.value)))
      && (chosen.None? ==> r[0] == OnError(NoFileExtension))
    ensures r[0].InvokeCallback? ==> r[0].options == MergeParseOptions(extension, options)
  {
    Load(registry, blobUrl, MergeParseOptions(extension, options))
  }

  /** `parse` picks its loader by the `extension` argument, unless `options` carries its own
      `extension` property, which then wins, even when it is falsy. */
  lemma ParseExtensionPrecedence<C>(registry: map<string, C>, blobUrl: string, extension: Option<string>, options: Options)
    ensures options.extension.Missing? && Truthy(extension) ==>
      Parse(registry, blobUrl, extension, options)[0] ==
        (if extension.value in registry then InvokeCallback(registry[extension.value], blobUrl, Options(Present(extension)))
         else OnError(NoLoadCallback(extension.value)))
    ensures options.extension.Present? ==>
      Parse(registry, blobUrl, extension, options) == Load(registry, blobUrl, options)
  {
  }
}

=== FILE: extension.dfy ===
/** The file extension of a URL, as every loader variant computes it with the regular
    expression `/\.([^\.\/\\]+)$/` and its first capture group. */
module Extension {
  import opened Wrappers

  /** A character the capture group `[^\.\/\\]` accepts. */
  predicate IsExtChar(c: char)
  {
    c != '.' && c != '/' && c != '\\'
  }

  /** Reference reading of the regular expression: `url` ends with a `.` followed by
      `ext`, and `ext` is one or more characters none of which is `.`, `/` or `\`. */
  predicate MatchesPattern(url: string, ext: string)
  {
    && 0 < |ext| < |url|
    && (forall i :: 0 <= i < |ext| ==> IsExtChar(ext[i]))
    && url[|url| - |ext| - 1] == '.'
    && url[|url| - |ext|..] == ext
  }

  /** Length of the longest suffix of `s` made of extension characters: how far the
      regular expression's character class reaches back from the end. */
  function TrailingRun(s: string): (n: nat)
    ensures n <= |s|
    ensures forall k :: |s| - n <= k < |s| ==> IsExtChar(s[k])
    ensures n < |s| ==> !IsExtChar(s[|s| - n - 1])
  {
    if |s| == 0 || !IsExtChar(s[|s| - 1]) then 0
    else TrailingRun(s[..|s| - 1]) + 1
  }

  /** `extractExtension( url )` (and the inline copies in the other loader variants):
      the capture group of the match, or `null` when there is no match. */
  function ExtractExtension(url: string): (r: Option<string>)
    ensures r.Some? ==> MatchesPattern(url, r.value)
    ensures r.None? ==> forall ext :: !MatchesPattern(url, ext)
  {
    var n := TrailingRun(url);
    if 0 < n < |url| && url[|url| - n - 1] == '.' then
      Some(url[|url| - n..])
    else
      NoMatchBeyondRun(url);
      None
  }

  /** Any match of the pattern is exactly the trailing run of extension characters. */
  lemma MatchIsTrailingRun(url: string, ext: string)
    requires MatchesPattern(url, ext)
    ensures TrailingRun(url) == |ext|
  {
    var n := TrailingRun(url);
    var m := |ext|;
    assert forall k :: |url| - m <= k < |url| ==> url[k] == ext[k - (|url| - m)];
    assert forall k :: |url| - m <= k < |url| ==> IsExtChar(url[k]);
    assert !IsExtChar(url[|url| - m - 1]);
  }

  lemma NoMatchBeyondRun(url: string)
    requires !(0 < TrailingRun(url) < |url| && url[|url| - TrailingRun(url) - 1] == '.')
    ensures forall ext :: !MatchesPattern(url, ext)
  {
    forall ext | MatchesPattern(url, ext)
      ensures false
    {
      MatchIsTrailingRun(url, ext);
    }
  }

  /** The pattern has at most one capture for a given URL. */
  lemma MatchUnique(url: string, e1: string, e2: string)
    requires MatchesPattern(url, e1) && MatchesPattern(url, e2)
    ensures e1 == e2
  {
    MatchIsTrailingRun(url, e1);
    MatchIsTrailingRun(url, e2);
  }

  /** `ExtractExtension` finds a match exactly when there is one, and it is that match. */
  lemma ExtractExtensionIff(url: string, ext: string)
    ensures ExtractExtension(url) == Some(ext) <==> MatchesPattern(url, ext)
  {
    if MatchesPattern(url, ext) {
      var r := ExtractExtension(url);
      assert r.Some?;
      MatchUnique(url, r.value, ext);
    }
  }

  /** Position of the last occurrence of `c` in `s`. */
  function LastIndexOf(s: string, c: char): (i: nat)
    requires c in s
    ensures i < |s| && s[i] == c
    ensures forall k :: i < k < |s| ==> s[k] != c
  {
    if s[|s| - 1] == c then |s| - 1
    else
      assert c in s[..|s| - 1] by {
        var j :| 0 <= j < |s| && s[j] == c;
        assert s[..|s| - 1][j] == c;
      }
      LastIndexOf(s[..|s| - 1], c)
  }

  /** The extension in terms of the last dot: `null` without a dot; otherwise the text after
      the last dot, unless that text is empty or holds a `/` or `\`. */
  lemma ExtensionAfterLastDot(url: string)
    ensures '.' !in url ==> ExtractExtension(url) == None
    ensures '.' in url ==>
      var tail := url[LastIndexOf(url, '.') + 1..];
      ExtractExtension(url) == (if tail != "" && '/' !in tail && '\\' !in tail then Some(tail) else None)
  {
    var r := ExtractExtension(url);
    if r.Some? {
      MatchFollowsLastDot(url, r.value);
    }
    if '.' in url {
      var i := LastIndexOf(url, '.');
      var tail := url[i + 1..];
      assert forall k :: 0 <= k < |tail| ==> tail[k] == url[i + 1 + k];
      if tail != "" && '/' !in tail && '\\' !in tail {
        assert MatchesPattern(url, tail);
        ExtractExtensionIff(url, tail);
      }
    }
  }

  /** A match starts right after the last dot of the URL. */
  lemma MatchFollowsLastDot(url: string, ext: string)
    requires MatchesPattern(url, ext)
    ensures '.' in url
    ensures LastIndexOf(url, '.') == |url| - |ext| - 1
  {
    var p := |url| - |ext| - 1;
    assert url[p] == '.';
    var i := LastIndexOf(url, '.');
    assert forall k :: p < k < |url| ==> url[k] == ext[k - p - 1];
    assert forall k :: p < k < |url| ==> IsExtChar(url[k]);
  }

  /** A found extension is non-empty, free of `.`, `/` and `\`, and ends the URL after a dot. */
  lemma ExtensionShape(url: string)
    requires ExtractExtension(url).Some?
    ensures var e := ExtractExtension(url).value;
      && e != ""
      && '.' !in e && '/' !in e && '\\' !in e
      && url == url[..|url| - |e| - 1] + "." + e
  {
    var e := ExtractExtension(url).value;
    assert url == url[..|url| - |e| - 1] + [url[|url| - |e| - 1]] + url[|url| - |e|..];
  }

  /** Appending `.` and an extension-shaped word to any prefix makes that word the extension. */
  lemma ExtensionOfSuffix(prefix: string, ext: string)
    requires ext != "" && forall i :: 0 <= i < |ext| ==> IsExtChar(ext[i])
    ensures ExtractExtension(prefix + "." + ext) == Some(ext)
  {
    var url := prefix + "." + ext;
    assert url[|url| - |ext|..] == ext;
    assert MatchesPattern(url, ext);
    ExtractExtensionIff(url, ext);
  }
}

=== FILE: loader_cache.dfy ===
/** `extToLoader` of umd/ModelLoader.js and ModelLoader.js: lower-case the extension, look
    up the loader class name, and hand out one loader instance per class name, created
    on first use and kept for the lifetime of the ModelLoader. */
module LoaderCache {
  import opened Wrappers
  import opened Text
  import LoaderTable

  /** `ext ? ext.toLowerCase() : null`. */
  function NormalizeExt(ext: Option<string>): (r: Option<string>)
    ensures r.Some? <==> Truthy(ext)
    ensures r.Some? ==> r.value == ToLower(ext.value) && IsLower(r.value)
  {
    if Truthy(ext) then
      ToLowerIsLower(ext.value);
      Some(ToLower(ext.value))
    else None
  }

  /** `this.loaderMap[ ext ] || null` after normalising: a `null` extension is looked up
      under the key "null", and an empty class name counts as missing. */
  function LoaderNameFor(table: map<string, string>, ext: Option<string>): (r: Option<string>)
    ensures r.Some? ==> JsKey(NormalizeExt(ext)) in table && r.value == table[JsKey(NormalizeExt(ext))]
    ensures r.Some? ==> r.value != ""
    ensures r.None? ==> JsKey(NormalizeExt(ext)) !in table || table[JsKey(NormalizeExt(ext))] == ""
  {
    var key := JsKey(NormalizeExt(ext));
    if key in table && table[key] != "" then Some(table[key]) else None
  }

  /** The error `extToLoader` reports for an extension with no loader. */
  datatype LoaderError = NoLoaderSpecified(ext: Option<string>)
  {
    function Message(): string
    {
      "Model Loader : No loader specified for '" + JsKey(ext) + "' extension"
    }
  }

  /** What one `extToLoader` call does: the loader handed to `loaderCb`, with its class
      name and whether `getLoader` had to create it, or the error passed to `onError`. */
  datatype Outcome<L> = Found(loader: L, name: string, created: bool) | NotFound(error: LoaderError)

  /** The outcome together with the loader cache (`cachedLoaders`) afterwards. */
  datatype Lookup<L> = Lookup(cache: map<string, L>, outcome: Outcome<L>)

  /** `extToLoader( ext, loaderCb, onError )` with the default synchronous `getLoader`, which
      yields `instance` when it is asked for an instance. */
  function ExtToLoader<L>(table: map<string, string>, cache: map<string, L>, ext: Option<string>, instance: L): (r: Lookup<L>)
    ensures r.outcome.NotFound? <==> LoaderNameFor(table, ext).None?
    ensures r.outcome.NotFound? ==> r.cache == cache && r.outcome.error.ext == NormalizeExt(ext)
    ensures r.outcome.Found? ==>
      var name := r.outcome.name;
      && name == LoaderNameFor(table, ext).value
      && name in r.cache && r.cache[name] == r.outcome.loader
      && (r.outcome.created <==> name !in cache)
      && (name in cache ==> r.outcome.loader == cache[name] && r.cache == cache)
      && (name !in cache ==> r.outcome.loader == instance && r.cache == cache[name := instance])
    ensures forall n :: n in cache ==> n in r.cache && r.cache[n] == cache[n]
    ensures r.cache.Keys <= cache.Keys + (if r.outcome.Found? then {r.outcome.name} else {})
  {
    match LoaderNameFor(table, ext)
    case None => Lookup(cache, NotFound(NoLoaderSpecified(NormalizeExt(ext))))
    case Some(name) =>
      if name in cache then Lookup(cache, Found(cache[name], name, false))
      else Lookup(cache[name := instance], Found(instance, name, true))
  }

  /** Extensions that differ only in ASCII case resolve to the same loader name, get the same
      instance from the same cache, and report the same error. */
  lemma CaseInsensitive<L>(table: map<string, string>, cache: map<string, L>, a: string, b: string, instance: L)
    requires ToLower(a) == ToLower(b)
    ensures LoaderNameFor(table, Some(a)) == LoaderNameFor(table, Some(b))
    ensures ExtToLoader(table, cache, Some(a), instance) == ExtToLoader(table, cache, Some(b), instance)
  {
    assert |a| == |ToLower(a)| == |b|;
    assert Truthy(Some(a)) <==> Truthy(Some(b));
  }

  /** A key of a well-formed table is found under itself and under any case variant. */
  lemma TableKeyResolves(table: map<string, string>, ext: string, key: string)
    requires LoaderTable.WellFormedTable(table)
    requires key in table && table[key] != ""
    requires ToLower(ext) == key
    ensures LoaderNameFor(table, Some(ext)) == Some(table[key])
  {
    assert key != "";
    assert |ext| == |key|;
  }

  /** A second request whose extension maps to the loader name of an earlier successful
      request (`gltf` then `GLB`, `vtk` then `vtp`) is served from the cache: the same
      instance, no new `getLoader` call, and the cache unchanged. */
  lemma SharedLoaderReused<L>(table: map<string, string>, cache: map<string, L>, e1: Option<string>, e2: Option<string>, instance1: L, instance2: L)
    requires LoaderNameFor(table, e1).Some?
    requires LoaderNameFor(table, e2) == LoaderNameFor(table, e1)
    ensures var first := ExtToLoader(table, cache, e1, instance1);
      var second := ExtToLoader(table, first.cache, e2, instance2);
      && second.outcome.Found?
      && !second.outcome.created
      && second.outcome.loader == first.outcome.loader
      && second.cache == first.cache
  {
  }

  /** One request of a session: an extension, and the instance `getLoader` would yield. */
  datatype Request<L> = Request(ext: Option<string>, instance: L)

  /** The loader cache after a sequence of requests, and the class names `getLoader` was
      asked for, in order. */
  datatype SessionResult<L> = SessionResult(cache: map<string, L>, created: seq<string>)

  function Session<L>(table: map<string, string>, cache: map<string, L>, reqs: seq<Request<L>>): SessionResult<L>
    decreases |reqs|
  {
    if reqs == [] then SessionResult(cache, [])
    else
      var step := ExtToLoader(table, cache, reqs[0].ext, reqs[0].instance);
      var made := if step.outcome.Found? && step.outcome.created then [step.outcome.name] else [];
      var rest := Session(table, step.cache, reqs[1..]);
      SessionResult(rest.cache, made + rest.created)
  }

  /** What a session promises about the cache it started from, the cache it ends with and
      the class names it created. */
  ghost predicate CreatesOnce<L>(cache: map<string, L>, final: map<string, L>, created: seq<string>)
  {
    && (forall n :: n in cache ==> n in final && final[n] == cache[n])
    && (forall i :: 0 <= i < |created| ==> created[i] !in cache)
    && (forall i, j :: 0 <= i < j < |created| ==> created[i] != created[j])
    && (forall n :: n in final <==> n in cache || n in created)
  }

  /** Over any sequence of requests, `getLoader` is asked for each class name at most once
      and never for one already cached; cached instances are never replaced or removed; and
      the cache ends up holding exactly the initial names plus the created ones. */
  lemma {:induction false} SessionCreatesEachLoaderOnce<L>(table: map<string, string>, cache: map<string, L>, reqs: seq<Request<L>>)
    ensures var r := Session(table, cache, reqs);
      CreatesOnce(cache, r.cache, r.created)
    decreases |reqs|
  {
    if reqs != [] {
      var step := ExtToLoader(table, cache, reqs[0].ext, reqs[0].instance);
      var made := if step.outcome.Found? && step.outcome.created then [step.outcome.name] else [];
      var rest := Session(table, step.cache, reqs[1..]);
      SessionCreatesEachLoaderOnce(table, step.cache, reqs[1..]);
      assert CreatesOnce(cache, step.cache, made);
      CreatesOnceCompose(cache, step.cache, rest.cache, made, rest.created);
    }
  }

  /** Two sessions run one after the other compose, when the first created at most one name. */
  lemma CreatesOnceCompose<L>(cache: map<string, L>, mid: map<string, L>, final: map<string, L>, first: seq<string>, second: seq<string>)
    requires |first| <= 1
    requires CreatesOnce(cache, mid, first)
    requires CreatesOnce(mid, final, second)
    ensures CreatesOnce(cache, final, first + second)
  {
    var all := first + second;
    forall i, j | 0 <= i < j < |all|
      ensures all[i] != all[j]
    {
      assert all[j] == second[j - |first|];
      if i >= |first| {
        assert all[i] == second[i - |first|];
      } else {
        assert all[i] in mid;
      }
    }
    forall i | 0 <= i < |all|
      ensures all[i] !in cache
    {
      if i >= |first| {
        assert all[i] == second[i - |first|];
        assert all[i] !in mid;
      }
    }
    forall n | n in final
      ensures n in cache || n in all
    {
      if n in second {
        var k :| 0 <= k < |second| && second[k] == n;
        assert all[|first| + k] == n;
      }
    }
  }
}

=== FILE: loader_table.dfy ===
/** The fixed tables from file extension to three.js loader class name. */
module LoaderTable {
  import opened Text
  import Extension

  /** `loaderMap` of src/ModelLoader.js, also the `loaderMap` field of umd/ModelLoader.js. */
  const LoaderMap: map<string, string> := map[
    "3mf" := "3MFLoader",
    "amf" := "AMFLoader",
    "bvh" := "BVHLoader",
    "assimp" := "AssimpLoader",
    "babylon" := "BabylonLoader",
    "dae" := "ColladaLoader",
    "drc" := "DRACOLoader",
    "fbx" := "FBXLoader",
    "gcode" := "GCodeLoader",
    "gltf" := "GLTFLoader",
    "glb" := "GLTFLoader",
    "kmz" := "KMZLoader",
    "md2" := "MD2Loader",
    "mmd" := "MMDLoader",
    "obj" := "OBJLoader",
    "ply" := "PLYLoader",
    "pcd" := "PCDLoader",
    "prwm" := "PRWMLoader",
    "stl" := "STLLoader",
    "tds" := "TDSLoader",
    "vtk" := "VTKLoader",
    "vtp" := "VTKLoader",
    "wrl" := "VRMLLoader",
    "x" := "XLoader",
    "zae" := "ColladaArchiveLoader"
  ]

  /** The `loaderMap` of the older ModelLoader.js: the same table without the VRML entry. */
  const LegacyLoaderMap: map<string, string> := LoaderMap - {"wrl"}

  /** Every key of the table as a sequence, in the source's order. */
  const LoaderMapKeys: seq<string> := ["3mf", "amf", "bvh", "assimp", "babylon", "dae", "drc", "fbx",
    "gcode", "gltf", "glb", "kmz", "md2", "mmd", "obj", "ply", "pcd", "prwm", "stl", "tds", "vtk",
    "vtp", "wrl", "x", "zae"]

  /** A key that is lower case and could be captured as a URL extension. */
  predicate ExtensionKey(ext: string)
  {
    ext != "" && forall i :: 0 <= i < |ext| ==> Extension.IsExtChar(ext[i]) && LowerChar(ext[i]) == ext[i]
  }

  /** A table whose keys are all lower case and all possible URL extensions. */
  predicate WellFormedTable(table: map<string, string>)
  {
    forall ext :: ext in table ==> ExtensionKey(ext)
  }

  lemma LoaderMapKeysListed()
    ensures forall ext :: ext in LoaderMap <==> ext in LoaderMapKeys
  {
  }

  lemma LoaderMapWellFormed()
    ensures WellFormedTable(LoaderMap)
    ensures WellFormedTable(LegacyLoaderMap)
  {
    KeysWellFormed0();
    KeysWellFormed1();
    KeysWellFormed2();
    KeysWellFormed3();
    KeysWellFormed4();
    LoaderMapKeysListed();
  }

  lemma KeysWellFormed0()
    ensures forall i :: 0 <= i < 5 ==> ExtensionKey(LoaderMapKeys[i])
  {
    assert ExtensionKey("3mf");
    assert ExtensionKey("amf");
    assert ExtensionKey("bvh");
    assert ExtensionKey("assimp");
    assert ExtensionKey("babylon");
  }

  lemma KeysWellFormed1()
    ensures forall i :: 5 <= i < 10 ==> ExtensionKey(LoaderMapKeys[i])
  {
    assert ExtensionKey("dae");
    assert ExtensionKey("drc");
    assert ExtensionKey("fbx");
    assert ExtensionKey("gcode");
    assert ExtensionKey("gltf");
  }

  lemma KeysWellFormed2()
    ensures forall i :: 10 <= i < 15 ==> ExtensionKey(LoaderMapKeys[i])
  {
    assert ExtensionKey("glb");
    assert ExtensionKey("kmz");
    assert ExtensionKey("md2");
    assert ExtensionKey("mmd");
    assert ExtensionKey("obj");
  }

  lemma KeysWellFormed3()
    ensures forall i :: 15 <= i < 20 ==> ExtensionKey(LoaderMapKeys[i])
  {
    assert ExtensionKey("ply");
    assert ExtensionKey("pcd");
    assert ExtensionKey("prwm");
    assert ExtensionKey("stl");
    assert ExtensionKey("tds");
  }

  lemma KeysWellFormed4()
    ensures forall i :: 20 <= i < 25 ==> ExtensionKey(LoaderMapKeys[i])
  {
    assert ExtensionKey("vtk");
    assert ExtensionKey("vtp");
    assert ExtensionKey("wrl");
    assert ExtensionKey("x");
    assert ExtensionKey("zae");
  }

  /** Extensions that share a loader class in both tables. */
  lemma SharedLoaders()
    ensures LoaderMap["gltf"] == LoaderMap["glb"] == "GLTFLoader"
    ensures LoaderMap["vtk"] == LoaderMap["vtp"] == "VTKLoader"
    ensures LegacyLoaderMap["gltf"] == LegacyLoaderMap["glb"]
    ensures LegacyLoaderMap["vtk"] == LegacyLoaderMap["vtp"]
    ensures "wrl" in LoaderMap && "wrl" !in LegacyLoaderMap
  {
  }
}

=== FILE: result_shape.dfy ===
/** `formResult`: normalising the differently shaped results of the format loaders into one
    record `{ model, extension, originalResult }`. three.js objects are the opaque type `O`. */
module ResultShape {
  import opened Wrappers

  /** What a format loader hands back: possibly a `scene` field, possibly an `object` field (`obj`),
      and the result itself viewed as a three.js object (a bare geometry or group). */
  datatype Raw<O> = Raw(scene: Option<O>, obj: Option<O>, itself: O)

  /** Material of the mesh built around a bare geometry: src/ModelLoader.js uses
      `MeshPhongMaterial`, umd/ModelLoader.js uses `MeshBasicMaterial`, both white. */
  datatype Material = MeshPhong(color: nat) | MeshBasic(color: nat)

  const White: nat := 0xffffff

  /** The model handed to the caller: a three.js object as found, or a new mesh wrapping a
      geometry. */
  datatype Model<O> = AsFound(obj: O) | MeshOf(geometry: O, material: Material)
  {
    /** The loader output the model was built from. */
    function Source(): O
    {
      match this
      case AsFound(o) => o
      case MeshOf(g, _) => g
    }
  }

  datatype Formed<O> = Formed(model: Model<O>, extension: Option<string>, originalResult: Raw<O>)

  /** `formResult( res, extension )`. `isGeometry` stands for
      `model.isBufferGeometry || model.isGeometry`. */
  function FormResult<O>(res: Raw<O>, extension: Option<string>, isGeometry: O -> bool, material: Material): (r: Formed<O>)
    ensures res.scene.Some? ==> r.model.Source() == res.scene.value
    ensures res.scene.None? && res.obj.Some? ==> r.model.Source() == res.obj.value
    ensures res.scene.None? && res.obj.None? ==> r.model.Source() == res.itself
    ensures r.model.MeshOf? <==> isGeometry(r.model.Source())
    ensures r.model.MeshOf? ==> r.model.material == material
    ensures r.originalResult == res
    ensures r.extension == extension
  {
    var picked := if res.scene.Some? then res.scene.value
                  else if res.obj.Some? then res.obj.value
                  else res.itself;
    var model := if isGeometry(picked) then MeshOf(picked, material) else AsFound(picked);
    Formed(model, extension, res)
  }
}

=== FILE: text.dfy ===
/** String helpers shared by the loaders and the drop demo: ASCII lower-casing,
    suffix tests, splitting and joining on a separator character. */
module Text {

  /** Lower-cases one character; only 'A'..'Z' change (see README for the Unicode gap). */
  function LowerChar(c: char): char
  {
    if 'A' <= c <= 'Z' then (c as int - 'A' as int + 'a' as int) as char else c
  }

  /** `String.prototype.toLowerCase` restricted to ASCII letters. */
  function ToLower(s: string): (r: string)
    ensures |r| == |s|
    ensures forall i :: 0 <= i < |s| ==> r[i] == LowerChar(s[i])
  {
    seq(|s|, i requires 0 <= i < |s| => LowerChar(s[i]))
  }

  /** A string is lower case when lower-casing does not change any of its characters. */
  predicate IsLower(s: string)
  {
    forall i :: 0 <= i < |s| ==> LowerChar(s[i]) == s[i]
  }

  lemma LowerCharIdempotent(c: char)
    ensures LowerChar(LowerChar(c)) == LowerChar(c)
  {
  }

  /** Lower-casing is idempotent and its result is lower case. */
  lemma ToLowerIsLower(s: string)
    ensures IsLower(ToLower(s))
    ensures ToLower(ToLower(s)) == ToLower(s)
  {
    forall i | 0 <= i < |s|
      ensures LowerChar(ToLower(s)[i]) == ToLower(s)[i]
    {
      LowerCharIdempotent(s[i]);
    }
  }

  /** Lower-casing distributes over concatenation. */
  lemma ToLowerConcat(a: string, b: string)
    ensures ToLower(a + b) == ToLower(a) + ToLower(b)
  {
  }

  /** `suffix` is a suffix of `s`. */
  predicate EndsWith(s: string, suffix: string)
  {
    |suffix| <= |s| && s[|s| - |suffix|..] == suffix
  }

  lemma EndsWithConcat(a: string, b: string)
    ensures EndsWith(a + b, b)
  {
    assert (a + b)[|a|..] == b;
  }

  /** Replaces every occurrence of one character by another
      (`s.replace( /x/g, y )` for single characters). */
  function ReplaceChar(s: string, from: char, to: char): (r: string)
    ensures |r| == |s|
    ensures forall i :: 0 <= i < |s| ==> r[i] == (if s[i] == from then to else s[i])
  {
    seq(|s|, i requires 0 <= i < |s| => if s[i] == from then to else s[i])
  }

  lemma ReplaceCharRemoves(s: string, from: char, to: char)
    requires from != to
    ensures from !in ReplaceChar(s, from, to)
  {
    var r := ReplaceChar(s, from, to);
    forall i | 0 <= i < |r|
      ensures r[i] != from
    {
    }
  }

  lemma ReplaceCharAbsent(s: string, from: char, to: char)
    requires from !in s
    ensures ReplaceChar(s, from, to) == s
  {
  }

  lemma ReplaceCharConcat(a: string, b: string, from: char, to: char)
    ensures ReplaceChar(a + b, from, to) == ReplaceChar(a, from, to) + ReplaceChar(b, from, to)
  {
  }

  /** Index of the first occurrence of `c` in `s`. */
  function IndexOf(s: string, c: char): (i: nat)
    requires c in s
    ensures i < |s| && s[i] == c
    ensures c !in s[..i]
  {
    if s[0] == c then 0
    else
      var j := IndexOf(s[1..], c);
      assert s[..j + 1] == [s[0]] + s[1..][..j];
      j + 1
  }

  /** `s.split( sep )` for a one-character separator: at least one piece, none of them
      containing the separator; the empty string splits into `[""]`. */
  function Split(s: string, sep: char): (r: seq<string>)
    ensures |r| >= 1
    ensures forall i :: 0 <= i < |r| ==> sep !in r[i]
    decreases |s|
  {
    if sep in s then
      var i := IndexOf(s, sep);
      [s[..i]] + Split(s[i + 1..], sep)
    else
      [s]
  }

  /** `pieces.join( sep )`. */
  function Join(pieces: seq<string>, sep: char): string
    decreases |pieces|
  {
    if |pieces| == 0 then ""
    else if |pieces| == 1 then pieces[0]
    else pieces[0] + [sep] + Join(pieces[1..], sep)
  }

  /** Splitting at the first separator. */
  lemma SplitUnfold(s: string, sep: char, i: nat)
    requires i < |s| && s[i] == sep && sep !in s[..i]
    ensures Split(s, sep) == [s[..i]] + Split(s[i + 1..], sep)
  {
    IndexOfUnique(s, sep, i);
  }

  /** Splitting a concatenation around a separator splits each side. */
  lemma {:induction false} SplitConcat(a: string, sep: char, b: string)
    ensures Split(a + [sep] + b, sep) == Split(a, sep) + Split(b, sep)
    decreases |a|
  {
    if sep in a {
      var i := IndexOf(a, sep);
      SplitConcatStep(a, sep, b, i);
      SplitConcat(a[i + 1..], sep, b);
      SeqAssoc([a[..i]], Split(a[i + 1..], sep), Split(b, sep));
    } else {
      SplitConcatAtom(a, sep, b);
    }
  }

  lemma SeqAssoc<T>(x: seq<T>, y: seq<T>, z: seq<T>)
    ensures x + (y + z) == (x + y) + z
  {
  }

  lemma SplitConcatAtom(a: string, sep: char, b: string)
    requires sep !in a
    ensures Split(a + [sep] + b, sep) == Split(a, sep) + Split(b, sep)
  {
    var s := a + [sep] + b;
    assert s[..|a|] == a;
    SplitUnfold(s, sep, |a|);
    assert s[|a| + 1..] == b;
  }

  lemma SplitConcatStep(a: string, sep: char, b: string, i: nat)
    requires i < |a| && a[i] == sep && sep !in a[..i]
    ensures Split(a + [sep] + b, sep) == [a[..i]] + Split(a[i + 1..] + [sep] + b, sep)
    ensures Split(a, sep) == [a[..i]] + Split(a[i + 1..], sep)
  {
    var s := a + [sep] + b;
    assert s[..i] == a[..i];
    SplitUnfold(s, sep, i);
    SplitUnfold(a, sep, i);
    assert s[i + 1..] == a[i + 1..] + [sep] + b;
  }

  lemma IndexOfUnique(s: string, c: char, i: nat)
    requires i < |s| && s[i] == c && c !in s[..i]
    ensures IndexOf(s, c) == i
  {
    var j := IndexOf(s, c);
    assert forall k :: 0 <= k < i ==> s[..i][k] == s[k];
    assert forall k :: 0 <= k < j ==> s[..j][k] == s[k];
  }

  /** A piece without the separator splits into itself. */
  lemma SplitAtom(a: string, sep: char)
    requires sep !in a
    ensures Split(a, sep) == [a]
  {
  }

  /** Joining pieces that hold no separator and splitting again gives the pieces back. */
  lemma {:induction false} SplitJoin(pieces: seq<string>, sep: char)
    requires |pieces| >= 1
    requires forall i :: 0 <= i < |pieces| ==> sep !in pieces[i]
    ensures Split(Join(pieces, sep), sep) == pieces
    decreases |pieces|
  {
    if |pieces| == 1 {
      SplitAtom(pieces[0], sep);
    } else {
      var rest := pieces[1..];
      assert forall i :: 0 <= i < |rest| ==> rest[i] == pieces[i + 1];
      SplitJoin(rest, sep);
      assert Join(pieces, sep) == pieces[0] + [sep] + Join(rest, sep);
      SplitJoinStep(pieces[0], Join(rest, sep), sep);
      assert pieces == [pieces[0]] + rest;
    }
  }

  lemma SplitJoinStep(head: string, tail: string, sep: char)
    requires sep !in head
    ensures Split(head + [sep] + tail, sep) == [head] + Split(tail, sep)
  {
    SplitConcat(head, sep, tail);
    SplitAtom(head, sep);
  }

  /** Joining never introduces a character other than the separator. */
  lemma {:induction false} JoinAvoids(pieces: seq<string>, sep: char, c: char)
    requires c != sep
    requires forall i :: 0 <= i < |pieces| ==> c !in pieces[i]
    ensures c !in Join(pieces, sep)
    decreases |pieces|
  {
    if |pieces| > 1 {
      JoinAvoids(pieces[1..], sep, c);
    }
  }

  /** Splitting never introduces a character the string did not have. */
  lemma {:induction false} SplitAvoids(s: string, sep: char, c: char)
    requires c !in s
    ensures forall i :: 0 <= i < |Split(s, sep)| ==> c !in Split(s, sep)[i]
    decreases |s|
  {
    if sep in s {
      var i := IndexOf(s, sep);
      assert forall k :: 0 <= k < i ==> s[..i][k] == s[k];
      var t := s[i + 1..];
      assert forall k :: 0 <= k < |t| ==> t[k] == s[i + 1 + k];
      SplitAvoids(s[i + 1..], sep, c);
    }
  }
}

=== FILE: umd_model_loader.dfy ===
/** umd/ModelLoader.js: the bundled ModelLoader the viewer element uses. It lower-cases the
    extension, maps it to a three.js loader class through the fixed table and keeps one
    loader instance per class (see LoaderCache). Loader instances are the opaque type `L`. */
module UmdModelLoader {
  import opened Wrappers
  import opened Extension
  import opened Text
  import LoaderTable
  import LoaderCache
  import ResultShape

  /** The loader's mutable state: `cachedLoaders`. */
  datatype State<L> = State(cachedLoaders: map<string, L>)

  /** A call the loader makes: `getLoader( name, … )`, `loader.load( url, … )`,
      `onError( error )`, `onLoad( formResult( loader.parse( data ) ) )`, or a `TypeError`
      thrown out of the call. */
  datatype Call<L> =
    | GetLoader(name: string)
    | LoaderLoad(loader: L, url: string)
    | OnError(message: string)
    | DeliverParsed(loader: L)
    | ThrowsTypeError

  /** The state after a call and the calls it made, in order. */
  datatype Step<L> = Step(state: State<L>, calls: seq<Call<L>>)

  /** `extToLoader( ext, loaderCb, onError )` on the umd table, followed by `continuation` on the loader
      it yields: the calls of the lookup itself, then those of the continuation. */
  function WithLoader<L>(st: State<L>, ext: Option<string>, instance: L, continuation: L -> seq<Call<L>>): (r: Step<L>)
  {
    var lookup := LoaderCache.ExtToLoader(LoaderTable.LoaderMap, st.cachedLoaders, ext, instance);
    match lookup.outcome
    case NotFound(e) => Step(State(lookup.cache), [OnError(e.Message())])
    case Found(loader, name, created) =>
      Step(State(lookup.cache), (if created then [GetLoader(name)] else []) + continuation(loader))
  }

  /** `load( url, onLoad, onProgress, onError, extOverride )`. A truthy `extOverride` wins
      over the URL's extension; an unknown or missing extension reports "No loader specified"
      once and starts nothing; otherwise the (possibly newly created) loader is asked to load
      the URL, once. */
  function Load<L>(st: State<L>, url: string, extOverride: Option<string>, instance: L): (r: Step<L>)
    ensures var ext := OrElse(extOverride, ExtractExtension(url));
      var name := LoaderCache.LoaderNameFor(LoaderTable.LoaderMap, ext);
      && (name.None? ==>
            && r.state == st
            && r.calls == [OnError(LoaderCache.NoLoaderSpecified(LoaderCache.NormalizeExt(ext)).Message())])
      && (name.Some? && name.value in st.cachedLoaders ==>
            && r.state == st
            && r.calls == [LoaderLoad(st.cachedLoaders[name.value], url)])
      && (name.Some? && name.value !in st.cachedLoaders ==>
            && r.state == State(st.cachedLoaders[name.value := instance])
            && r.calls == [GetLoader(name.value), LoaderLoad(instance, url)])
  {
    var ext := OrElse(extOverride, ExtractExtension(url));
    WithLoader(st, ext, instance, loader => [LoaderLoad(loader, url)])
  }

  /** Extensions are case-insensitive here: overriding with `GLB` or with `glb` (or taking either
      from a URL) does exactly the same thing. */
  lemma LoadIgnoresCase<L>(st: State<L>, url: string, a: string, b: string, instance: L)
    requires ToLower(a) == ToLower(b)
    ensures Load(st, url, Some(a), instance) == Load(st, url, Some(b), instance)
  {
    assert |a| == |b|;
    LoaderCache.CaseInsensitive(LoaderTable.LoaderMap, st.cachedLoaders, a, b, instance);
  }

  /** A missing extension is looked up as "null", which the table does not have, and is
      reported under that name. */
  lemma NullExtensionUnmapped()
    ensures LoaderCache.LoaderNameFor(LoaderTable.LoaderMap, None) == None
    ensures LoaderCache.NoLoaderSpecified(LoaderCache.NormalizeExt(None)).Message() ==
      "Model Loader : No loader specified for 'null' extension"
  {
    assert LoaderCache.NormalizeExt(None) == None;
    assert "null" !in LoaderTable.LoaderMap by {
      LoaderTable.LoaderMapKeysListed();
      assert forall i :: 0 <= i < |LoaderTable.LoaderMapKeys| ==> LoaderTable.LoaderMapKeys[i][0] != 'n';
    }
  }

  /** A URL without an extension and no override: one `onError`, nothing loaded or created. */
  lemma LoadWithoutExtension<L>(st: State<L>, url: string, instance: L)
    requires ExtractExtension(url).None?
    ensures Load(st, url, None, instance) ==
      Step(st, [OnError("Model Loader : No loader specified for 'null' extension")])
  {
    assert OrElse(None, ExtractExtension(url)) == None;
    NullExtensionUnmapped();
  }

  /** `onLoad( this.formResult( res ) )` inside `load`: `formResult` gets no extension, so the
      record's `extension` is undefined. */
  function Completed<O>(res: ResultShape.Raw<O>, isGeometry: O -> bool): (r: ResultShape.Formed<O>)
    ensures r.extension == None
    ensures r.originalResult == res
    ensures res.scene.Some? ==> r.model.Source() == res.scene.value
    ensures res.scene.None? && res.obj.Some? ==> r.model.Source() == res.obj.value
    ensures res.scene.None? && res.obj.None? ==> r.model.Source() == res.itself
    ensures r.model.MeshOf? <==> isGeometry(r.model.Source())
    ensures r.model.MeshOf? ==> r.model.material == ResultShape.MeshBasic(ResultShape.White)
  {
    ResultShape.FormResult(res, None, isGeometry, ResultShape.MeshBasic(ResultShape.White))
  }

  /** `parse( data, ext, onLoad, onError )` as written: it calls the three-parameter
      `extToLoader( ext, loaderCb, onError )` with four arguments, so `loaderCb` is
      `this.manager` and `onError` is the arrow function meant as `loaderCb`; the real
      `onError` is dropped. An unknown extension makes the arrow call `.parse` on the Error
      object; a known one makes `extToLoader` call the manager. Either way a TypeError is
      thrown, after a newly created loader has been cached. */
  function ParseAsWritten<L>(st: State<L>, ext: Option<string>, instance: L): (r: Step<L>)
    ensures r.state.cachedLoaders == LoaderCache.ExtToLoader(LoaderTable.LoaderMap, st.cachedLoaders, ext, instance).cache
    ensures |r.calls| >= 1 && r.calls[|r.calls| - 1] == ThrowsTypeError
    ensures forall i :: 0 <= i < |r.calls| - 1 ==> r.calls[i].GetLoader?
  {
    var lookup := LoaderCache.ExtToLoader(LoaderTable.LoaderMap, st.cachedLoaders, ext, instance);
    match lookup.outcome
    case NotFound(_) => Step(st, [ThrowsTypeError])
    case Found(_, name, created) =>
      Step(State(lookup.cache), (if created then [GetLoader(name)] else []) + [ThrowsTypeError])
  }

  /** The as-written `parse` never reaches `onLoad` or `onError`: every call ends in a TypeError. */
  lemma ParseAsWrittenAlwaysThrows<L>(st: State<L>, ext: Option<string>, instance: L)
    ensures var r := ParseAsWritten(st, ext, instance);
      && |r.calls| >= 1 && r.calls[|r.calls| - 1] == ThrowsTypeError
      && forall i :: 0 <= i < |r.calls| ==> !r.calls[i].OnError? && !r.calls[i].DeliverParsed?
  {
  }

  /** `parse` as evidently intended (and as ModelLoader.js writes it): the parsed result is
      delivered through `onLoad`, or the lookup error through `onError`, exactly once. */
  function Parse<L>(st: State<L>, ext: Option<string>, instance: L): (r: Step<L>)
    ensures |r.calls| >= 1
    ensures var last := r.calls[|r.calls| - 1];
      last.OnError? || last.DeliverParsed?
    ensures forall i :: 0 <= i < |r.calls| - 1 ==> r.calls[i].GetLoader?
    ensures r.calls[|r.calls| - 1].OnError? <==> LoaderCache.LoaderNameFor(LoaderTable.LoaderMap, ext).None?
    ensures r.calls[|r.calls| - 1].OnError? ==> r.state == st
    ensures r.state.cachedLoaders.Keys >= st.cachedLoaders.Keys
  {
    WithLoader(st, ext, instance, loader => [DeliverParsed(loader)])
  }
}

=== FILE: viewer_element.dfy ===
/** umd/model-viewer-element.js: the `<model-viewer>` custom element. Modelled are its
    attribute-backed properties, the attribute-change reactions, the request counter that
    lets only the latest load land, and the dirty-flag gate of the render loop. The scene
    graph, the renderer and the event objects are left out: a loaded model is the opaque
    type `M`, and what the element dispatches or starts is returned as a list of events. */
module ModelViewerElement {
  import opened Wrappers

  /** `observedAttributes`: the attributes whose changes reach `attributeChangedCallback`. */
  const ObservedAttributes: set<string> := {"src", "display-shadow", "ambient-color", "show-grid"}

  /** Default of the `ambientColor` property. */
  const DefaultAmbientColor: string := "#455A64"

  /** `clientWidth` × `clientHeight`, or the renderer's size. */
  datatype Size = Size(width: int, height: int)

  /** The state of one element.
      - `attrs`: its attributes;
      - `attached`: it has a `parentNode`;
      - `looping`: the render loop is still scheduled (`disconnectedCallback` cancels it);
      - `prevSrc`: `_prevsrc`, undefined until the first `_loadModel`;
      - `model`: `_model`;
      - `requestId`: `_requestId`;
      - `dirty`: `_dirty`;
      - `gridVisible`: `gridHelper.visible`;
      - `lightColor`: the ambient light's colour as last set from `ambientColor`;
      - `castShadow`: the directional light's `castShadow`;
      - `rendererSize`: the renderer's current size. */
  datatype Element<M> = Element(
    attrs: map<string, string>,
    attached: bool,
    looping: bool,
    prevSrc: Option<string>,
    model: Option<M>,
    requestId: nat,
    dirty: bool,
    gridVisible: bool,
    lightColor: string,
    castShadow: bool,
    rendererSize: Size)

  /** What the element dispatches or starts: the `model-change` event, a
      `modelLoader.load( src, … )` carrying the request id it captured, the `model-loaded`
      event, the `error` event, and one rendered frame. */
  datatype Event =
    | ModelChange(src: string)
    | LoadStarted(src: string, id: nat)
    | ModelLoaded
    | Error(detail: string)
    | Rendered

  datatype Outcome<M> = Outcome(element: Element<M>, events: seq<Event>)

  // ----- properties -----

  /** `get src()`: the attribute, or `''`. */
  function Src<M>(e: Element<M>): (r: string)
    ensures "src" in e.attrs ==> r == e.attrs["src"]
    ensures "src" !in e.attrs ==> r == ""
  {
    if "src" in e.attrs then e.attrs["src"] else ""
  }

  /** `get ambientColor()`: the attribute when it is non-empty, or the default. */
  function AmbientColor<M>(e: Element<M>): (r: string)
    ensures r != ""
    ensures "ambient-color" in e.attrs && e.attrs["ambient-color"] != "" ==> r == e.attrs["ambient-color"]
    ensures !("ambient-color" in e.attrs && e.attrs["ambient-color"] != "") ==> r == DefaultAmbientColor
  {
    if "ambient-color" in e.attrs && e.attrs["ambient-color"] != "" then e.attrs["ambient-color"]
    else DefaultAmbientColor
  }

  /** `get displayShadow()`, `get showGrid()`, `get autoRedraw()`: presence of the attribute. */
  predicate DisplayShadow<M>(e: Element<M>)
  {
    "display-shadow" in e.attrs
  }

  predicate ShowGrid<M>(e: Element<M>)
  {
    "show-grid" in e.attrs
  }

  predicate AutoRedraw<M>(e: Element<M>)
  {
    "auto-redraw" in e.attrs
  }

  /** The constructed element: no model, request counter 0, the render loop running, the grid
      hidden, the directional light casting shadows and the ambient light in the colour the
      attributes give. No callback runs here: for an element upgraded from markup, the
      `attributeChangedCallback` calls the platform makes for the observed attributes already
      present (a `src` among them starts a load) are later `SetAttr` operations. */
  function New<M>(attrs: map<string, string>, size: Size): (e: Element<M>)
    ensures e.attrs == attrs && e.model.None? && e.prevSrc.None? && e.requestId == 0
    ensures e.looping && !e.attached && !e.dirty && !e.gridVisible && e.castShadow
    ensures e.lightColor == AmbientColor(e)
  {
    var e0 := Element(attrs, false, true, None, None, 0, false, false, DefaultAmbientColor, true, size);
    e0.(lightColor := AmbientColor(e0))
  }

  // ----- loading -----

  /** The ids of the loads started in a list of events, in order. */
  function Started(events: seq<Event>): (ids: seq<nat>)
    ensures |ids| <= |events|
  {
    if events == [] then []
    else (if events[0].LoadStarted? then [events[0].id] else []) + Started(events[1..])
  }

  lemma {:induction false} StartedConcat(a: seq<Event>, b: seq<Event>)
    ensures Started(a + b) == Started(a) + Started(b)
    decreases |a|
  {
    if a == [] {
      assert a + b == b;
    } else {
      assert (a + b)[0] == a[0];
      assert (a + b)[1..] == a[1..] + b;
      StartedConcat(a[1..], b);
    }
  }

  /** The consecutive ids `lo`, `lo + 1`, …, `hi - 1`. */
  function Range(lo: nat, hi: nat): (r: seq<nat>)
    requires lo <= hi
    ensures |r| == hi - lo
    decreases hi - lo
  {
    if lo == hi then [] else [lo] + Range(lo + 1, hi)
  }

  lemma {:induction false} RangeIndex(lo: nat, hi: nat, i: nat)
    requires lo <= hi && i < hi - lo
    ensures Range(lo, hi)[i] == lo + i
    decreases hi - lo
  {
    if i > 0 {
      RangeIndex(lo + 1, hi, i - 1);
    }
  }

  lemma {:induction false} RangeConcat(lo: nat, mid: nat, hi: nat)
    requires lo <= mid <= hi
    ensures Range(lo, mid) + Range(mid, hi) == Range(lo, hi)
    decreases mid - lo
  {
    if lo < mid {
      RangeConcat(lo + 1, mid, hi);
      assert [lo] + Range(lo + 1, mid) + Range(mid, hi) == [lo] + (Range(lo + 1, mid) + Range(mid, hi));
    }
  }

  /** One step's events start no load and keep the counter, or start exactly one load under
      the incremented counter. */
  predicate CountsStarts(before: nat, after: nat, events: seq<Event>)
  {
    || (after == before && Started(events) == [])
    || (after == before + 1 && Started(events) == [after])
  }

  /** `_loadModel( src )`. The same `src` as last time does nothing. Otherwise `src` is
      remembered, a present model is removed and the element marked dirty, and a non-empty
      `src` fires `model-change` and starts a load under the next request id. */
  function LoadModel<M>(e: Element<M>, src: string): (r: Outcome<M>)
    ensures e.prevSrc == Some(src) ==> r == Outcome(e, [])
    ensures e.prevSrc != Some(src) ==>
      && r.element.prevSrc == Some(src)
      && r.element.model.None?
      && (e.model.Some? ==> r.element.dirty)
      && (e.model.None? ==> r.element.dirty == e.dirty)
    ensures e.prevSrc != Some(src) && src != "" ==>
      && r.element.requestId == e.requestId + 1
      && r.events == [ModelChange(src), LoadStarted(src, e.requestId + 1)]
    ensures src == "" ==> r.element.requestId == e.requestId && r.events == []
    ensures r.element.attrs == e.attrs && r.element.looping == e.looping && r.element.attached == e.attached
    ensures r.element.gridVisible == e.gridVisible && r.element.lightColor == e.lightColor
    ensures r.element.castShadow == e.castShadow && r.element.rendererSize == e.rendererSize
    ensures CountsStarts(e.requestId, r.element.requestId, r.events)
  {
    if e.prevSrc == Some(src) then Outcome(e, [])
    else
      var remembered := e.(prevSrc := Some(src));
      var cleared := if remembered.model.Some? then remembered.(model := None, dirty := true) else remembered;
      if src != "" then
        var id := cleared.requestId + 1;
        assert Started([ModelChange(src), LoadStarted(src, id)]) == [id] by {
          assert [ModelChange(src), LoadStarted(src, id)][1..] == [LoadStarted(src, id)];
          assert [LoadStarted(src, id)][1..] == [];
        }
        Outcome(cleared.(requestId := id), [ModelChange(src), LoadStarted(src, id)])
      else Outcome(cleared, [])
  }

  /** The load's success callback for the request captured as `id`: only the current request
      is shown (`_addModel`, which ends by marking the element dirty) and announced with
      `model-loaded`; any other changes nothing. */
  function CompleteLoad<M>(e: Element<M>, id: nat, obj: M): (r: Outcome<M>)
    ensures id != e.requestId ==> r == Outcome(e, [])
    ensures id == e.requestId ==> r.element.model == Some(obj) && r.element.dirty && r.events == [ModelLoaded]
    ensures r.element.(model := e.model, dirty := e.dirty) == e
  {
    if e.requestId != id then Outcome(e, [])
    else Outcome(e.(model := Some(obj), dirty := true), [ModelLoaded])
  }

  /** A load that lands is drawn on the next frame of the running, attached loop, whatever the
      size or the auto-redraw setting. */
  lemma LandedLoadRendered<M>(e: Element<M>, obj: M, client: Size)
    requires e.looping && e.attached
    ensures var landed := CompleteLoad(e, e.requestId, obj).element;
      && Frame(landed, client).events == [Rendered]
      && Frame(landed, client).element.model == Some(obj)
  {
  }

  /** The load's error callback: the `error` event, for any request, current or not. */
  function LoadFailed<M>(e: Element<M>, detail: string): (r: Outcome<M>)
    ensures r == Outcome(e, [Error(detail)])
  {
    Outcome(e, [Error(detail)])
  }

  // ----- attributes -----

  /** `attributeChangedCallback( attr )`: always marks the element dirty; `src` reloads,
      `ambient-color` recolours the ambient light, `show-grid` shows or hides the grid. */
  function AttributeChanged<M>(e: Element<M>, attr: string): (r: Outcome<M>)
    ensures r.element.dirty
    ensures r.element.attrs == e.attrs && r.element.looping == e.looping && r.element.attached == e.attached
    ensures attr == "src" ==> r.events == LoadModel(e, Src(e)).events
    ensures attr == "src" ==> r.element.model == LoadModel(e, Src(e)).element.model
    ensures attr == "src" ==> r.element.requestId == LoadModel(e, Src(e)).element.requestId
    ensures attr != "src" ==> r.events == [] && r.element.model == e.model && r.element.requestId == e.requestId
    ensures attr == "ambient-color" ==> r.element.lightColor == AmbientColor(e)
    ensures attr != "ambient-color" ==> r.element.lightColor == e.lightColor
    ensures attr == "show-grid" ==> r.element.gridVisible == ShowGrid(e)
    ensures attr != "show-grid" ==> r.element.gridVisible == e.gridVisible
    ensures attr == "src" ==> r.element.prevSrc == Some(Src(e))
    ensures attr != "src" ==> r.element.(dirty := e.dirty, lightColor := e.lightColor, gridVisible := e.gridVisible) == e
    ensures r.element.castShadow == e.castShadow && r.element.rendererSize == e.rendererSize
    ensures CountsStarts(e.requestId, r.element.requestId, r.events)
  {
    var marked := e.(dirty := true);
    if attr == "src" then LoadModel(marked, Src(marked))
    else if attr == "ambient-color" then Outcome(marked.(lightColor := AmbientColor(marked)), [])
    else if attr == "show-grid" then Outcome(marked.(gridVisible := ShowGrid(marked)), [])
    else Outcome(marked, [])
  }

  /** `setAttribute( name, value )`: the callback runs for observed attributes, even when the
      value did not change. The exact effect of the callback on each attribute is stated by
      `AttributeChanged` and carried by the property setters (`SetSrc`, `SetShowGrid`, …). */
  function SetAttribute<M>(e: Element<M>, name: string, value: string): (r: Outcome<M>)
    ensures r.element.attrs == e.attrs[name := value]
    ensures name !in ObservedAttributes ==> r == Outcome(e.(attrs := e.attrs[name := value]), [])
    ensures name in ObservedAttributes ==> r.element.dirty
  {
    var updated := e.(attrs := e.attrs[name := value]);
    if name in ObservedAttributes then AttributeChanged(updated, name) else Outcome(updated, [])
  }

  /** `removeAttribute( name )`: removing an absent attribute changes nothing and runs no
      callback. */
  function RemoveAttribute<M>(e: Element<M>, name: string): (r: Outcome<M>)
    ensures r.element.attrs == e.attrs - {name}
    ensures name !in e.attrs ==> r == Outcome(e, [])
    ensures name in e.attrs && name in ObservedAttributes ==> r.element.dirty
  {
    if name !in e.attrs then Outcome(e, [])
    else
      var updated := e.(attrs := e.attrs - {name});
      if name in ObservedAttributes then AttributeChanged(updated, name) else Outcome(updated, [])
  }

  /** `set src( val )`, with `val` already converted to a string: `src` reads back `val`; a
      new non-empty value starts exactly one load, under the next id, after `model-change`;
      the value last loaded starts nothing. */
  function SetSrc<M>(e: Element<M>, val: string): (r: Outcome<M>)
    ensures Src(r.element) == val
    ensures e.prevSrc != Some(val) && val != "" ==>
      r.events == [ModelChange(val), LoadStarted(val, e.requestId + 1)] && r.element.requestId == e.requestId + 1
    ensures e.prevSrc == Some(val) ==> r.events == [] && r.element.requestId == e.requestId
  {
    SetAttribute(e, "src", val)
  }

  /** `set displayShadow( val )`, with `val` reduced to its truthiness: the property reads
      back `val`. */
  function SetDisplayShadow<M>(e: Element<M>, val: bool): (r: Outcome<M>)
    ensures DisplayShadow(r.element) == val
    ensures r.events == []
  {
    if val then SetAttribute(e, "display-shadow", "") else RemoveAttribute(e, "display-shadow")
  }

  /** `set ambientColor( val )`: a truthy string is stored and read back, anything else
      removes the attribute and the default is read back; the light follows whenever the
      callback runs. */
  function SetAmbientColor<M>(e: Element<M>, val: Option<string>): (r: Outcome<M>)
    ensures AmbientColor(r.element) == (if Truthy(val) then val.value else DefaultAmbientColor)
    ensures Truthy(val) || "ambient-color" in e.attrs ==> r.element.lightColor == AmbientColor(r.element)
    ensures !(Truthy(val) || "ambient-color" in e.attrs) ==> r.element.lightColor == e.lightColor
    ensures r.events == []
  {
    if Truthy(val) then SetAttribute(e, "ambient-color", val.value) else RemoveAttribute(e, "ambient-color")
  }

  /** `set showGrid( val )`: `true` stores "true"; the property reads back `val` and the grid
      follows whenever the callback runs. */
  function SetShowGrid<M>(e: Element<M>, val: bool): (r: Outcome<M>)
    ensures ShowGrid(r.element) == val
    ensures val || "show-grid" in e.attrs ==> r.element.gridVisible == val
    ensures r.events == []
  {
    if val then SetAttribute(e, "show-grid", "true") else RemoveAttribute(e, "show-grid")
  }

  /** `set autoRedraw( val )`: the property reads back `val`; the attribute is not observed,
      so nothing else changes. */
  function SetAutoRedraw<M>(e: Element<M>, val: bool): (r: Outcome<M>)
    ensures AutoRedraw(r.element) == val
    ensures r.events == [] && r.element.(attrs := e.attrs) == e
  {
    if val then SetAttribute(e, "auto-redraw", "true") else RemoveAttribute(e, "auto-redraw")
  }

  /** `displayShadow` reads presence, not the value: `display-shadow="false"` still turns
      shadows on, and only removing the attribute turns them off. */
  lemma DisplayShadowIsPresence<M>(e: Element<M>, value: string)
    ensures DisplayShadow(SetAttribute(e, "display-shadow", value).element)
    ensures !DisplayShadow(RemoveAttribute(e, "display-shadow").element)
  {
  }

  /** `showGrid` reads presence, not the value: `show-grid="false"` still shows the grid. */
  lemma ShowGridIsPresence<M>(e: Element<M>, value: string)
    ensures ShowGrid(SetAttribute(e, "show-grid", value).element)
    ensures SetAttribute(e, "show-grid", value).element.gridVisible
    ensures !ShowGrid(RemoveAttribute(e, "show-grid").element)
  {
  }

  /** `autoRedraw` reads presence, not the value, and whatever it reads the attribute change
      runs no callback. */
  lemma AutoRedrawIsPresence<M>(e: Element<M>, value: string)
    ensures AutoRedraw(SetAttribute(e, "auto-redraw", value).element)
    ensures !AutoRedraw(RemoveAttribute(e, "auto-redraw").element)
    ensures SetAttribute(e, "auto-redraw", value).events == []
  {
  }

  // ----- rendering -----

  /** `redraw()`, and the controls' `change` and the loading manager's `onLoad` listeners:
      mark the element dirty. */
  function Redraw<M>(e: Element<M>): (r: Element<M>)
    ensures r.dirty
    ensures r.(dirty := e.dirty) == e
  {
    e.(dirty := true)
  }

  /** `_refresh()`: a renderer size that differs from the element's client size is updated and
      marks the element dirty. */
  function Refresh<M>(e: Element<M>, client: Size): (r: Element<M>)
    ensures r.rendererSize == client
    ensures r.dirty <==> e.dirty || e.rendererSize != client
    ensures r.(dirty := e.dirty, rendererSize := e.rendererSize) == e
  {
    if e.rendererSize != client then e.(dirty := true, rendererSize := client) else e
  }

  /** One pass of `_renderLoop`. While the loop runs and the element is attached it refreshes,
      then renders when dirty or auto-redrawing; a render copies `displayShadow` to the light
      and clears the dirty flag. */
  function Frame<M>(e: Element<M>, client: Size): (r: Outcome<M>)
    ensures r.events == [Rendered] <==>
      e.looping && e.attached && (e.dirty || e.rendererSize != client || AutoRedraw(e))
    ensures r.events == [] || r.events == [Rendered]
    ensures r.events == [Rendered] ==> !r.element.dirty && r.element.castShadow == DisplayShadow(e)
    ensures r.events == [] ==> r.element.castShadow == e.castShadow && r.element.dirty == e.dirty
    ensures r.element.attrs == e.attrs && r.element.model == e.model && r.element.requestId == e.requestId
    ensures !(e.looping && e.attached) ==> r == Outcome(e, [])
    ensures e.looping && e.attached ==> r.element.rendererSize == client
    ensures r.element.(dirty := e.dirty, castShadow := e.castShadow, rendererSize := e.rendererSize) == e
  {
    if !e.looping || !e.attached then Outcome(e, [])
    else
      var refreshed := Refresh(e, client);
      if refreshed.dirty || AutoRedraw(refreshed) then
        Outcome(refreshed.(castShadow := DisplayShadow(refreshed), dirty := false), [Rendered])
      else Outcome(refreshed, [])
  }

  /** After a frame that rendered nothing, nothing was pending: a second frame of the same
      size renders only because of auto-redraw or some change in between. */
  lemma IdleFrameStaysIdle<M>(e: Element<M>, client: Size)
    requires Frame(e, client).events == []
    ensures Frame(Frame(e, client).element, client).events == []
  {
  }

  /** A rendered frame leaves nothing pending: the next frame of the same size renders again
      only with auto-redraw on. */
  lemma RenderClearsPending<M>(e: Element<M>, client: Size)
    requires Frame(e, client).events == [Rendered]
    ensures Frame(Frame(e, client).element, client).events == [Rendered] <==> AutoRedraw(e)
  {
  }

  // ----- the element over time -----

  /** What can happen to an element: attribute edits, load callbacks, redraw requests, frames,
      and being attached to or removed from the document. */
  datatype Op<M> =
    | SetAttr(name: string, value: string)
    | RemoveAttr(name: string)
    | Complete(id: nat, obj: M)
    | Fail(detail: string)
    | RequestRedraw
    | Tick(client: Size)
    | Connect
    | Disconnect

  /** `connectedCallback` (attach) and `disconnectedCallback`, which cancels the next frame
      for good: nothing restarts the loop. */
  function Apply<M>(e: Element<M>, op: Op<M>): (r: Outcome<M>)
    ensures r.element.requestId >= e.requestId
    ensures CountsStarts(e.requestId, r.element.requestId, r.events)
    ensures !e.looping ==> !r.element.looping
  {
    match op
    case SetAttr(name, value) => SetAttribute(e, name, value)
    case RemoveAttr(name) => RemoveAttribute(e, name)
    case Complete(id, obj) => CompleteLoad(e, id, obj)
    case Fail(detail) => LoadFailed(e, detail)
    case RequestRedraw => Outcome(Redraw(e), [])
    case Tick(client) => Frame(e, client)
    case Connect => Outcome(e.(attached := true), [])
    case Disconnect => Outcome(e.(attached := false, looping := false), [])
  }

  /** `step` applied to each operation in turn, with everything the steps emitted. */
  function Steps<M>(step: (Element<M>, Op<M>) -> Outcome<M>, e: Element<M>, ops: seq<Op<M>>): Outcome<M>
    decreases |ops|
  {
    if ops == [] then Outcome(e, [])
    else
      var first := step(e, ops[0]);
      var rest := Steps(step, first.element, ops[1..]);
      Outcome(rest.element, first.events + rest.events)
  }

  /** The element after a sequence of operations, with everything it emitted. The counter
      never goes down, and the loads started carry exactly the ids it passed through. */
  function Run<M>(e: Element<M>, ops: seq<Op<M>>): (r: Outcome<M>)
    ensures r.element.requestId >= e.requestId
    ensures Started(r.events) == Range(e.requestId + 1, r.element.requestId + 1)
  {
    StepsStartConsecutiveIds(Apply, e, ops);
    Steps(Apply, e, ops)
  }

  lemma StartedChain(a: seq<Event>, b: seq<Event>, lo: nat, mid: nat, hi: nat)
    requires CountsStarts(lo, mid, a)
    requires mid <= hi && Started(b) == Range(mid + 1, hi + 1)
    ensures lo <= hi && Started(a + b) == Range(lo + 1, hi + 1)
  {
    StartedConcat(a, b);
    if mid == lo + 1 {
      assert Range(lo + 1, mid + 1) == [mid];
    }
    RangeConcat(lo + 1, mid + 1, hi + 1);
  }

  /** The inductive step of the next lemma, stated over outcomes alone. */
  lemma ConsecutiveStep<M>(n: nat, first: Outcome<M>, rest: Outcome<M>, whole: Outcome<M>)
    requires CountsStarts(n, first.element.requestId, first.events)
    requires rest.element.requestId >= first.element.requestId
    requires Started(rest.events) == Range(first.element.requestId + 1, rest.element.requestId + 1)
    requires whole == Outcome(rest.element, first.events + rest.events)
    ensures whole.element.requestId >= n
    ensures Started(whole.events) == Range(n + 1, whole.element.requestId + 1)
  {
    StartedChain(first.events, rest.events, n, first.element.requestId, rest.element.requestId);
  }

  /** One step of `Run`: the first operation, then the rest. */
  lemma RunStep<M>(e: Element<M>, ops: seq<Op<M>>)
    requires ops != []
    ensures var first := Apply(e, ops[0]);
      var rest := Run(first.element, ops[1..]);
      Run(e, ops) == Outcome(rest.element, first.events + rest.events)
  {
  }

  /** For steps that each start no load and keep the counter, or start one under the next
      id, the loads started over any sequence of operations
      carry the ids `n + 1`, `n + 2`, … up to the final counter, each once and in order. */
  lemma {:induction false} StepsStartConsecutiveIds<M>(step: (Element<M>, Op<M>) -> Outcome<M>, e: Element<M>, ops: seq<Op<M>>)
    requires forall e': Element<M>, op: Op<M> :: CountsStarts(e'.requestId, step(e', op).element.requestId, step(e', op).events)
    ensures Steps(step, e, ops).element.requestId >= e.requestId
    ensures Started(Steps(step, e, ops).events) == Range(e.requestId + 1, Steps(step, e, ops).element.requestId + 1)
    decreases |ops|
  {
    if ops != [] {
      var first := step(e, ops[0]);
      StepsStartConsecutiveIds(step, first.element, ops[1..]);
      ConsecutiveStep(e.requestId, first, Steps(step, first.element, ops[1..]), Steps(step, e, ops));
    } else {
      assert Started([]) == [] == Range(e.requestId + 1, e.requestId + 1);
    }
  }

  /** Over any history the loads started carry the ids `n + 1`, `n + 2`, … up to the final
      counter, each once and in order: the counter counts started loads exactly. */
  lemma RunStartsConsecutiveIds<M>(e: Element<M>, ops: seq<Op<M>>)
    ensures Started(Run(e, ops).events) == Range(e.requestId + 1, Run(e, ops).element.requestId + 1)
  {
    StepsStartConsecutiveIds(Apply, e, ops);
  }

  /** Only the latest load can land: after any history, the completion of every load started
      in it except the last changes nothing and fires nothing. */
  lemma {:induction false} SupersededLoadsIgnored<M>(e: Element<M>, ops: seq<Op<M>>, obj: M)
    ensures var r := Run(e, ops);
      var ids := Started(r.events);
      forall i :: 0 <= i < |ids| - 1 ==> CompleteLoad(r.element, ids[i], obj) == Outcome(r.element, [])
  {
    RunStartsConsecutiveIds(e, ops);
    var r := Run(e, ops);
    forall i | 0 <= i < |Started(r.events)| - 1
      ensures Started(r.events)[i] < r.element.requestId
    {
      RangeIndex(e.requestId + 1, r.element.requestId + 1, i);
    }
  }

  /** One operation on a stopped element renders nothing. */
  lemma NoFrameInStep<M>(e: Element<M>, op: Op<M>)
    requires !e.looping
    ensures forall i :: 0 <= i < |Apply(e, op).events| ==> Apply(e, op).events[i] != Rendered
  {
    match op
    case Tick(client) =>
    case _ =>
  }

  /** Once the loop is cancelled no later frame renders, even after the element is attached
      again. */
  lemma {:induction false} NoFrameAfterDisconnect<M>(e: Element<M>, ops: seq<Op<M>>)
    requires !e.looping
    ensures forall i :: 0 <= i < |Run(e, ops).events| ==> Run(e, ops).events[i] != Rendered
    decreases |ops|
  {
    if ops != [] {
      var first := Apply(e, ops[0]);
      NoFrameInStep(e, ops[0]);
      NoFrameAfterDisconnect(first.element, ops[1..]);
      RunStep(e, ops);
    }
  }

  // ----- clearing src -----

  /** `_loadModel` as evidently intended: clearing `src` also retires the pending request, so
      no load started for an earlier `src` can land afterwards. */
  function LoadModelCancelling<M>(e: Element<M>, src: string): (r: Outcome<M>)
    ensures e.prevSrc == Some(src) ==> r == Outcome(e, [])
    ensures e.prevSrc != Some(src) ==> r.element.requestId == e.requestId + 1 && r.element.model.None?
    ensures e.prevSrc != Some(src) && src != "" ==> r == LoadModel(e, src)
    ensures e.prevSrc != Some(src) && src == "" ==> r.events == []
  {
    var r := LoadModel(e, src);
    if e.prevSrc != Some(src) && src == "" then Outcome(r.element.(requestId := r.element.requestId + 1), [])
    else r
  }

  /** As written, clearing `src` while a load is pending does not stop it: the pending load
      still lands, and the element shows a model although its `src` is empty. */
  lemma ClearedSrcStillAcceptsPendingLoad<M>(e: Element<M>, s: string, obj: M)
    requires s != "" && e.prevSrc != Some(s)
    ensures var started := SetSrc(e, s).element;
      var cleared := SetSrc(started, "").element;
      var landed := CompleteLoad(cleared, started.requestId, obj);
      && Src(cleared) == ""
      && landed.element.model == Some(obj)
      && landed.events == [ModelLoaded]
  {
  }

  /** With the correction, no load started before `src` was cleared can land. */
  lemma CancellingDropsPendingLoad<M>(e: Element<M>, s: string, obj: M, id: nat)
    requires s != "" && e.prevSrc != Some(s)
    requires id <= e.requestId + 1
    ensures var started := LoadModelCancelling(e, s).element;
      var cleared := LoadModelCancelling(started, "").element;
      && cleared.model.None?
      && CompleteLoad(cleared, id, obj) == Outcome(cleared, [])
  {
  }
}

=== FILE: wrappers.dfy ===
/** Optional values: the model's stand-in for JavaScript's `null` / `undefined`. */
module Wrappers {

  datatype Option<+T> = None | Some(value: T)

  /** JavaScript truthiness of an optional string: absent and `''` are both falsy. */
  predicate Truthy(s: Option<string>)
  {
    s.Some? && s.value != ""
  }

  /** `a || b` on optional strings: the first operand when it is truthy, the second otherwise. */
  function OrElse(a: Option<string>, b: Option<string>): (r: Option<string>)
    ensures Truthy(a) ==> r == a
    ensures !Truthy(a) ==> r == b
  {
    if Truthy(a) then a else b
  }

  /** The property key JavaScript uses for an optional string: `null` is stringified to "null". */
  function JsKey(s: Option<string>): string
  {
    match s
    case Some(v) => v
    case None => "null"
  }
}
